=== FILE: README.md ===
# Minesweeper knowledge engine and tic-tac-toe minimax, in Dafny

This project models two small game-playing programs and proves properties of
them.

**Minesweeper** (`project1/minesweeper/minesweeper.py`). The agent keeps:

- the cells it has played (`moves_made`);
- the cells it knows to be mines and safe;
- an ordered list of *sentences*, each saying "exactly `count` of these `cells` are mines".

Playing a cell and learning how many mines surround it (`add_knowledge`) runs six stages:

1. record the cell as played;
2. record it as safe;
3. build a sentence over the unknown neighbours, lowering the count by the mines already known;
4. close the knowledge under known mines and known safes;
5. run one round of subset inference;
6. drop the empty sentences.

The model threads an immutable `AI` record through these stages. Python's in-place mutation becomes a function or method that returns the updated record. The board's `nearby_mines` count is modelled too.

The main proved property is **soundness**. Take a board whose mines are `truth`. If the agent's facts and sentences are true of that board and the observation is the real count, they remain true after `add_knowledge` (`Consistent`). As a consequence:

- a cell recorded as safe is never a mine;
- no cell is ever both a mine and safe;
- every sentence's count lies between 0 and its size.

**Validity** is proved alongside soundness. It means that every played cell is safe and that no sentence mentions a cell whose status is known (`Valid`). Each stage also states its own result:

- stages 1 to 3 state the recorded cells and the appended sentence's cells and count exactly;
- the closure ends in a saturated state and reduces each sentence by exactly the cells it records; each pass is stated exactly, while which cells the whole loop records is left open (see "## Left out");
- the inferred batch is stated exactly: its soundness, freshness, de-duplication, completeness and order;
- the filter keeps every non-empty sentence, in order.

**Tic-tac-toe** (`project0/tictactoe/tictactoe.py`). The rules and the minimax search are modelled:

- whose turn it is, the legal moves, the board after a move, the winner, the end of the game and its value;
- the score of a board under perfect play (`minimax_score`) and the optimal move (`minimax`).

The winner scan is proved against an independent definition of "holds a line". The end of the game is proved equivalent to "someone won or no move is left". Turns are proved to alternate along every play. The score is proved to be the utility of a finished game and otherwise the maximum (X to move) or minimum (O to move) over the children. The move returned attains it.

Modules:

- `Wrappers`: `Option`.
- `Cells`: coordinates and neighbourhoods.
- `Minesweeper`: the board and `nearby_mines`.
- `Sentences`: the sentence and its soundness lemmas.
- `MinesweeperAI`: the agent.
- `TicTacToe`: the rules.
- `Minimax`: the search.

### Behaviour of the code worth knowing

- Subset inference runs once, after the closure loop. The sentences it derives are not closed over until the next `add_knowledge` call, so the state `add_knowledge` leaves need not be saturated as a whole. `Closure` proves `Saturated` for the state it returns. `AddKnowledge` claims it for the sentences that came through the closure (the earlier ones and the neighbour sentence, reduced), not for the inferred ones.
- The subset test is `issubset`, which is non-strict. Two structurally different sentences over the same cells yield a sentence with no cells, which the last stage drops. `Reducible` is this non-strict test.
- An inconsistent observation raises no error. The count is a plain integer, and a false count simply makes the agent's knowledge false of the real board. Soundness is therefore stated under the hypothesis that the observation is the true count.

## Model

| member | source | states |
|---|---|---|
| `Minesweeper.NearbyMines` | project1/minesweeper/minesweeper.py:58-81 | the 3 × 3 scan returns the number of mines among the in-bounds neighbours of the cell, the cell itself excluded |
| `Sentences.Sentence.KnownMines` | project1/minesweeper/minesweeper.py:107-114 | returns all of the cells when the count equals a non-zero size, and nothing otherwise |
| `Sentences.Sentence.KnownSafes` | project1/minesweeper/minesweeper.py:116-122 | returns all of the cells exactly when the count is zero (or there are no cells), and nothing otherwise |
| `Sentences.Sentence.MarkMine` | project1/minesweeper/minesweeper.py:124-131 | a member is removed and the count drops by one; a non-member leaves the sentence unchanged; afterwards the cell is absent |
| `Sentences.Sentence.MarkSafe` | project1/minesweeper/minesweeper.py:133-139 | the cell is removed, the count is kept, and a non-member leaves the sentence unchanged |
| `Sentences.HoldsBounds` | project1/minesweeper/minesweeper.py:97-99 | a sentence true of some board has a count between 0 and the number of its cells |
| `Sentences.KnownMinesSound` | project1/minesweeper/minesweeper.py:107-114 | every cell a true sentence reports as a mine is a mine |
| `Sentences.KnownSafesSound` | project1/minesweeper/minesweeper.py:116-122 | no cell a true sentence reports as safe is a mine |
| `Sentences.MarkMineSound` | project1/minesweeper/minesweeper.py:124-131 | taking a real mine out of a true sentence leaves it true |
| `Sentences.MarkSafeSound` | project1/minesweeper/minesweeper.py:133-139 | taking a safe cell out of a true sentence leaves it true |
| `Sentences.Difference` | project1/minesweeper/minesweeper.py:234-236 | no contract of its own: B's cells less A's, with B's count less A's; what it means is proved by `Sentences.DifferenceSound` |
| `Sentences.DifferenceSound` | project1/minesweeper/minesweeper.py:234-237 | if A's cells lie inside B's and both are true, B's other cells hold B's count minus A's count mines |
| `MinesweeperAI.Init` | project1/minesweeper/minesweeper.py:147-161 | a fresh agent is valid, holds no sentence, and is consistent with every possible board |
| `MinesweeperAI.ConsistentIsSound` | project1/minesweeper/minesweeper.py:156-161 | an agent consistent with a board never has a cell that is both a mine and safe, and each of its sentences has a count between 0 and its size |
| `MinesweeperAI.MarkMine` | project1/minesweeper/minesweeper.py:163-170 | exactly the cell is added to the mines; each sentence is updated by the sentence-level mark, so none still contains the cell; the safes, the played cells and the list length are kept, and validity is preserved |
| `MinesweeperAI.MarkSafe` | project1/minesweeper/minesweeper.py:172-179 | exactly the cell is added to the safes; each sentence is updated by the sentence-level mark, so none still contains the cell; the mines, the played cells and the list length are kept, and validity is preserved |
| `MinesweeperAI.MarkMineConsistent` | project1/minesweeper/minesweeper.py:163-170 | recording a real mine keeps the agent consistent with the board |
| `MinesweeperAI.MarkSafeConsistent` | project1/minesweeper/minesweeper.py:172-179 | recording a cell that is not a mine keeps the agent consistent with the board |
| `MinesweeperAI.MarkEachMine` | project1/minesweeper/minesweeper.py:217-220 | every reported mine ends up recorded; each sentence loses the newly recorded ones and its count drops by the number of them it mentioned; the flag is set exactly when something new was recorded; validity and consistency are kept |
| `MinesweeperAI.MarkEachSafe` | project1/minesweeper/minesweeper.py:222-225 | every reported safe cell ends up recorded; each sentence loses the newly recorded ones and keeps its count; the flag is set exactly when something new was recorded; validity and consistency are kept |
| `MinesweeperAI.ResolveSentence` | project1/minesweeper/minesweeper.py:216-225 | the sentence's known mines are added to the mines, then the known safes of the sentence as updated are added to the safes; every sentence is reduced by exactly the newly recorded cells; nothing changes exactly when both were already recorded, and otherwise the union of sentence cells strictly shrinks |
| `MinesweeperAI.ReducedByTwice` | project1/minesweeper/minesweeper.py:213-225 | two successive rounds of marking reduce every sentence exactly as one round by all the cells recorded in both |
| `MinesweeperAI.ClosurePass` | project1/minesweeper/minesweeper.py:214-225 | the result is `PassUpTo(ai, |ai.knowledge|)`: each sentence, once and in list order, has its known mines and then its known safes recorded against the state the earlier sentences left (`Resolved`); every sentence is reduced by exactly the cells the pass newly recorded, each mentioned by some sentence; a pass that records nothing leaves the agent unchanged and saturated; one that records something strictly shrinks the union of sentence cells |
| `MinesweeperAI.ResolvedIsExact` | project1/minesweeper/minesweeper.py:216-225 | the state after the closure's work on one sentence is determined by the mines and safes it records and the reduction of every sentence by them, and equals `Resolved` |
| `MinesweeperAI.Closure` | project1/minesweeper/minesweeper.py:211-225 | the loop terminates in a state where every known mine and known safe of every sentence is recorded; every sentence is the input one reduced by exactly the newly recorded cells, each mentioned by some input sentence; validity and consistency are kept |
| `MinesweeperAI.ScanRow` | project1/minesweeper/minesweeper.py:194-205 | one row of the scan adds that row's unknown neighbours and discounts exactly that row's known mines |
| `MinesweeperAI.ScanNeighbours` | project1/minesweeper/minesweeper.py:188-205 | the collected cells are the in-bounds neighbours in neither known set, and the count is lowered by the number of neighbours known to be mines |
| `MinesweeperAI.ObservationSound` | project1/minesweeper/minesweeper.py:199-209 | when the observed count is true, the unknown neighbours hold exactly the adjusted count of mines |
| `MinesweeperAI.Observe` | project1/minesweeper/minesweeper.py:182-209 | the cell is recorded as played and safe; earlier sentences lose it; a sentence over exactly the unknown neighbours, with the adjusted count, is appended iff that set is non-empty; validity is kept, and consistency is kept when the count is true |
| `MinesweeperAI.AddDerived` | project1/minesweeper/minesweeper.py:237-239 | the batch either stays as it was or gains exactly `derived` at its end; afterwards `derived` is in the knowledge or the batch, and the batch stays sound and duplicate-free |
| `MinesweeperAI.InferPair` | project1/minesweeper/minesweeper.py:230-246 | after visiting the ordered pair, if the first sentence is reducible into the second, the second less the first is in the knowledge or the batch; failing that, if the second is reducible into the first, the first less the second is; if neither is reducible the batch is unchanged; at most the pair's one candidate is appended |
| `MinesweeperAI.InferSubsets` | project1/minesweeper/minesweeper.py:227-246 | every inferred sentence is the difference of a reducible pair of sentences, is not already known, and appears once; every reducible pair's difference is known or inferred; the batch lists its sentences in the row-major order of the pairs (s1, s2) that first derive them |
| `MinesweeperAI.DerivedFits` | project1/minesweeper/minesweeper.py:233-237 | an inferred sentence mentions no recorded cell when its parents mention none, and is true of any board its parents are true of |
| `MinesweeperAI.RemoveEmpty` | project1/minesweeper/minesweeper.py:251-252 | the result holds every non-empty sentence of the list as often as the list does, and no empty one |
| `MinesweeperAI.RemoveEmptyAppend` | project1/minesweeper/minesweeper.py:251-252 | filtering a concatenation is the concatenation of the filtered parts, so the kept sentences stay in list order |
| `MinesweeperAI.AppendSentenceValid` | project1/minesweeper/minesweeper.py:207-209 | appending a sentence over unknown cells keeps the agent valid |
| `MinesweeperAI.AppendSentenceConsistent` | project1/minesweeper/minesweeper.py:207-209 | appending a true sentence keeps the agent consistent |
| `MinesweeperAI.AppendDerivedValid` | project1/minesweeper/minesweeper.py:248-249 | appending the inferred batch keeps the agent valid |
| `MinesweeperAI.AppendDerivedConsistent` | project1/minesweeper/minesweeper.py:248-249 | appending the inferred batch keeps the agent consistent with every board it was consistent with |
| `MinesweeperAI.RemoveEmptyPreserves` | project1/minesweeper/minesweeper.py:251-252 | dropping empty sentences keeps validity and consistency |
| `MinesweeperAI.AddKnowledge` | project1/minesweeper/minesweeper.py:181-252 | the cell ends up played and safe; the mine and safe sets only grow; every earlier sentence and the new neighbour sentence survive, reduced by the newly recorded cells, unless nothing of them is left; every known mine and known safe of those reduced sentences is recorded; no empty sentence remains; validity is kept; consistency with a board is kept when the observed count is that board's count |
| `MinesweeperAI.KnowledgeKept` | project1/minesweeper/minesweeper.py:207-252 | after the closure, inference and filtering, each earlier sentence and the neighbour sentence is in the list, reduced by the cells the closure recorded, unless it has no cells left; the known mines and known safes of each such reduced sentence are recorded |
| `MinesweeperAI.MakeSafeMove` | project1/minesweeper/minesweeper.py:254-258 | returns a safe, unplayed cell, which is not a mine on any board the agent is consistent with, and returns None exactly when every safe cell has been played |
| `MinesweeperAI.RandomChoices` | project1/minesweeper/minesweeper.py:261-262 | a cell is a choice exactly when it is on the board, not played and not a known mine |
| `MinesweeperAI.MakeRandomMove` | project1/minesweeper/minesweeper.py:260-263 | returns an on-board cell neither played nor a known mine, and None exactly when no such cell exists |
| `TicTacToe.InitialState` | project0/tictactoe/tictactoe.py:12-18 | every square of the starting board is empty |
| `TicTacToe.Actions` | project0/tictactoe/tictactoe.py:31-36 | a move is legal exactly when it is on the board and its square is empty |
| `TicTacToe.Player` | project0/tictactoe/tictactoe.py:21-28 | no contract of its own: X when X has placed no more marks than O, else O; `TicTacToe.PlayerAlternates` proves that turns alternate |
| `TicTacToe.Place` | project0/tictactoe/tictactoe.py:52-54 | the square receives the mark of the player to move and every other square is unchanged |
| `TicTacToe.PlayerAlternates` | project0/tictactoe/tictactoe.py:21-28 | X moves first; the empty board is balanced; on a balanced board X moves exactly when both have placed the same number of marks |
| `TicTacToe.Result` | project0/tictactoe/tictactoe.py:39-55 | the move is accepted iff it is legal; an off-board move is refused as out of bounds and a filled square as already filled; an accepted move writes the mover's mark there, changes no other square, and leaves one empty square fewer |
| `TicTacToe.PlaceCounts` | project0/tictactoe/tictactoe.py:52-55 | writing the mover's mark on an empty square adds one to that mark's count, takes one from the empty count, and changes no other count |
| `TicTacToe.ResultKeepsBalance` | project0/tictactoe/tictactoe.py:39-55 | a legal move on a balanced board is accepted and leaves it balanced |
| `TicTacToe.PlayKeepsBalance` | project0/tictactoe/tictactoe.py:21-55 | along any accepted sequence of moves from a balanced board, X has as many marks as O or one more |
| `TicTacToe.WinnerFrom` | project0/tictactoe/tictactoe.py:62-75 | no contract of its own: rows and columns from `i` on, then the two diagonals, first complete line first; `TicTacToe.WinnerFromSound` states what it finds |
| `TicTacToe.Winner` | project0/tictactoe/tictactoe.py:58-75 | no contract of its own: the scan from row and column 0; `TicTacToe.WinnerMatchesLines` proves it against the lines held |
| `TicTacToe.WinnerFromSound` | project0/tictactoe/tictactoe.py:62-75 | the scan from row and column `i` names a mark only when it holds a line, and names none only when no diagonal and no row or column from `i` on is complete |
| `TicTacToe.WinnerMatchesLines` | project0/tictactoe/tictactoe.py:58-75 | the winner names a mark only if that mark holds a row, column or diagonal, and is None exactly when neither mark does |
| `TicTacToe.FullRowsMeansNoEmpty` | project0/tictactoe/tictactoe.py:84-89 | the row-by-row scan finds no empty square exactly when no square is empty |
| `TicTacToe.Terminal` | project0/tictactoe/tictactoe.py:78-89 | no contract of its own: a winner, or no empty square in any row; `TicTacToe.TerminalIff` proves it means a winner or no legal move |
| `TicTacToe.TerminalIff` | project0/tictactoe/tictactoe.py:78-89 | the game is over exactly when there is a winner or no legal move |
| `TicTacToe.Utility` | project0/tictactoe/tictactoe.py:92-102 | the value is 1 exactly when X has won, -1 exactly when O has won, and 0 exactly when nobody has |
| `Minimax.ActionList` | project0/tictactoe/tictactoe.py:31-36 | the listed moves are exactly the legal moves |
| `Minimax.ChildIsResult` | project0/tictactoe/tictactoe.py:115 | the child board a legal move leads to is exactly the board `result` returns for it |
| `Minimax.ChildScoresAt` | project0/tictactoe/tictactoe.py:114-117 | each entry of the children's score list is the score of the board after the corresponding move |
| `Minimax.ChildScores` | project0/tictactoe/tictactoe.py:114-117 | one score per move, each between -1 and 1 |
| `Minimax.Outcome` | project0/tictactoe/tictactoe.py:115-117 | the score of the board a legal move leads to lies between -1 and 1 |
| `Minimax.NonTerminalHasMove` | project0/tictactoe/tictactoe.py:113-117 | a game that is not over has a legal move, so the maximum or minimum over the children exists |
| `Minimax.Extreme` | project0/tictactoe/tictactoe.py:115-117 | the result is one of the scores and is at least (maximising) or at most (minimising) every score |
| `Minimax.Score` | project0/tictactoe/tictactoe.py:105-117 | the recursion terminates, because each move fills an empty square, and the score lies between -1 and 1 |
| `Minimax.ExtremeOverMoves` | project0/tictactoe/tictactoe.py:114-117 | the extreme over the listed children is attained by a legal move and bounds every legal move's child score |
| `Minimax.ScoreIsMinimax` | project0/tictactoe/tictactoe.py:105-117 | a finished game scores its utility; otherwise the score is the maximum of the children's scores when X moves and the minimum when O moves |
| `Minimax.MaximizingMove` | project0/tictactoe/tictactoe.py:130-136 | the kept move is one of the candidates and its child scores at least as high as every candidate's |
| `Minimax.MinimizingMove` | project0/tictactoe/tictactoe.py:138-144 | the kept move is one of the candidates and its child scores at most as high as every candidate's |
| `Minimax.BestChildAttainsScore` | project0/tictactoe/tictactoe.py:120-146 | a move that is best among the children for the player to move has the board's own score |
| `Minimax.MinimaxMove` | project0/tictactoe/tictactoe.py:120-146 | returns None exactly when the game is over; otherwise a legal move whose child score is the maximum (X) or minimum (O) over all legal moves and equals the board's score |

## Left out

- `Minesweeper.__init__` places mines at random and `Minesweeper.print` writes to the console. The model takes the board as a given grid of booleans (`Game`), and its mine set is derived from the grid.
- `Minesweeper.won` and `mines_found` are left out. The core never updates `mines_found`, so `won` is only an equality test between two sets that the engine does not maintain.
- `Minesweeper.is_mine` is a board lookup that the engine never calls.
- `MinesweeperAI.MakeRandomMove`: `make_random_move` chooses uniformly at random. The model returns some eligible cell and does not model the distribution.
- Python's set iteration order, in `make_safe_move`, the closure's loops over `known_mines()`/`known_safes()` and `minimax`, is left open. The methods pick an arbitrary remaining element, so every proved property holds for every order.
- `MinesweeperAI.AddKnowledge`: does not state which inferred sentences end up in the list, nor the order of the final list, nor which cells the closure records (beyond the saturation of the reduced sentences). Its contract does not name the intermediate states, and stating the inferred batch in terms of the input alone would repeat the whole closure. Those facts are stated stage by stage: the reduction by `Closure`, the batch and its order by `InferSubsets`, and the filtering by `RemoveEmpty` and `RemoveEmptyAppend`.
- `MinesweeperAI.Closure`: states saturation and how every sentence is reduced by the recorded cells, not which cells the whole loop records as the least saturated state above the input. That characterisation would need a separate inductive definition of the fixpoint. Each single pass is pinned down exactly by `ClosurePass`.
- `Minimax.Score` follows the source's `max(...)`/`min(...)` over the children, taken over the row-major list of legal moves. Neither extreme depends on the order.
- `float('-inf')` and `float('inf')` in `minimax` become the integers -2 and 2. Every score lies in {-1, 0, 1}, so the first comparison always succeeds, as with the infinities.
- The exceptions raised by `result` become the `Rejected(OutOfBounds)` and `Rejected(AlreadyFilled)` results.
- Boards are always 3 × 3 grids (a subset type). Python's nested lists could be ragged, but no function of the core produces such a board.
- `project1/knights/puzzle.py` only builds formulas for a logic module that is not part of this model.
- `project2/heredity/heredity.py` and `project2/pagerank/pagerank.py` are floating-point probability computations with file input, outside this model.

=== FILE: cells.dfy ===
/** Board coordinates and the eight-cell neighbourhood used by both the
    Minesweeper board and the Minesweeper agent. */
module Cells {

  /** A (row, column) coordinate; equality is by value, like a Python tuple. */
  datatype Cell = Cell(row: int, col: int)

  /** `n` lies within one row and one column of `c`, is not `c` itself, and
      is on a board of the given height and width. */
  predicate IsNeighbour(c: Cell, n: Cell, height: int, width: int) {
    && c.row - 1 <= n.row <= c.row + 1
    && c.col - 1 <= n.col <= c.col + 1
    && n != c
    && 0 <= n.row < height
    && 0 <= n.col < width
  }

  /** The in-bounds neighbours of `c`. */
  function Neighbours(c: Cell, height: int, width: int): (r: set<Cell>)
    ensures forall n :: n in r <==> IsNeighbour(c, n, height, width)
  {
    set i, j | c.row - 1 <= i <= c.row + 1 && c.col - 1 <= j <= c.col + 1
               && IsNeighbour(c, Cell(i, j), height, width) :: Cell(i, j)
  }

  /** `n` comes before position (i, j) in a row-major scan. */
  predicate ScannedBefore(n: Cell, i: int, j: int) {
    n.row < i || (n.row == i && n.col < j)
  }
}

=== FILE: minesweeper_ai.dfy ===
/** The Minesweeper agent: the cells it has played, the cells it knows to be
    mines or safe, and an ordered list of sentences about the rest. Each
    Python method that mutates the agent becomes a function or method that
    returns the updated record. */
module MinesweeperAI {
  import opened Wrappers
  import opened Cells
  import opened Sentences

  datatype AI = AI(
    height: int,
    width: int,
    movesMade: set<Cell>,
    mines: set<Cell>,
    safes: set<Cell>,
    knowledge: seq<Sentence>)

  /** Every played cell is known safe, and no sentence mentions a cell whose
      status is already known. */
  predicate Valid(ai: AI) {
    && ai.movesMade <= ai.safes
    && forall t :: 0 <= t < |ai.knowledge| ==> ai.knowledge[t].cells !! (ai.mines + ai.safes)
  }

  /** The agent's knowledge is true of a board whose mines are `truth`. */
  ghost predicate Consistent(ai: AI, truth: set<Cell>) {
    && ai.mines <= truth
    && ai.safes !! truth
    && forall t :: 0 <= t < |ai.knowledge| ==> Holds(ai.knowledge[t], truth)
  }

  /** Every cell a sentence reports as a mine or as safe is already recorded. */
  predicate Saturated(ai: AI) {
    forall t :: 0 <= t < |ai.knowledge| ==>
      ai.knowledge[t].KnownMines() <= ai.mines && ai.knowledge[t].KnownSafes() <= ai.safes
  }

  /** The cells mentioned by some sentence. */
  function AllCells(k: seq<Sentence>): set<Cell> {
    set t, c | 0 <= t < |k| && c in k[t].cells :: c
  }

  /** A fresh agent knows nothing, so it is consistent with every board. */
  function Init(height: int, width: int): (ai: AI)
    ensures ai.height == height && ai.width == width
    ensures Valid(ai)
    ensures forall truth :: Consistent(ai, truth)
    ensures ai.knowledge == []
  {
    AI(height, width, {}, {}, {}, [])
  }

  /** A consistent agent never records a cell as both a mine and safe, and
      every sentence it holds has a count between zero and its size. */
  lemma ConsistentIsSound(ai: AI, truth: set<Cell>)
    requires Consistent(ai, truth)
    ensures ai.mines !! ai.safes
    ensures forall t :: 0 <= t < |ai.knowledge| ==>
      0 <= ai.knowledge[t].count <= |ai.knowledge[t].cells|
  {
    forall t | 0 <= t < |ai.knowledge|
      ensures 0 <= ai.knowledge[t].count <= |ai.knowledge[t].cells|
    {
      HoldsBounds(ai.knowledge[t], truth);
    }
  }

  /** Records `c` as a mine and removes it from every sentence. */
  function MarkMine(ai: AI, c: Cell): (r: AI)
    ensures r.mines == ai.mines + {c}
    ensures r.safes == ai.safes && r.movesMade == ai.movesMade
    ensures r.height == ai.height && r.width == ai.width
    ensures |r.knowledge| == |ai.knowledge|
    ensures forall t :: 0 <= t < |r.knowledge| ==> c !in r.knowledge[t].cells
    ensures forall t :: 0 <= t < |r.knowledge| ==> r.knowledge[t] == ai.knowledge[t].MarkMine(c)
    ensures Valid(ai) ==> Valid(r)
  {
    ai.(mines := ai.mines + {c},
        knowledge := seq(|ai.knowledge|, t requires 0 <= t < |ai.knowledge| => ai.knowledge[t].MarkMine(c)))
  }

  /** Records `c` as safe and removes it from every sentence. */
  function MarkSafe(ai: AI, c: Cell): (r: AI)
    ensures r.safes == ai.safes + {c}
    ensures r.mines == ai.mines && r.movesMade == ai.movesMade
    ensures r.height == ai.height && r.width == ai.width
    ensures |r.knowledge| == |ai.knowledge|
    ensures forall t :: 0 <= t < |r.knowledge| ==> c !in r.knowledge[t].cells
    ensures forall t :: 0 <= t < |r.knowledge| ==> r.knowledge[t] == ai.knowledge[t].MarkSafe(c)
    ensures Valid(ai) ==> Valid(r)
  {
    ai.(safes := ai.safes + {c},
        knowledge := seq(|ai.knowledge|, t requires 0 <= t < |ai.knowledge| => ai.knowledge[t].MarkSafe(c)))
  }

  /** Recording a real mine keeps the agent consistent with the board. */
  lemma MarkMineConsistent(ai: AI, c: Cell, truth: set<Cell>)
    requires Consistent(ai, truth) && c in truth
    ensures Consistent(MarkMine(ai, c), truth)
  {
    var r := MarkMine(ai, c);
    forall t | 0 <= t < |r.knowledge| ensures Holds(r.knowledge[t], truth) {
      MarkMineSound(ai.knowledge[t], c, truth);
    }
  }

  /** Recording a really safe cell keeps the agent consistent with the board. */
  lemma MarkSafeConsistent(ai: AI, c: Cell, truth: set<Cell>)
    requires Consistent(ai, truth) && c !in truth
    ensures Consistent(MarkSafe(ai, c), truth)
  {
    var r := MarkSafe(ai, c);
    forall t | 0 <= t < |r.knowledge| ensures Holds(r.knowledge[t], truth) {
      MarkSafeSound(ai.knowledge[t], c, truth);
    }
  }

  /** Removing the same cells from every sentence removes them from the
      union of the sentences' cells. */
  lemma AllCellsMinus(k: seq<Sentence>, k': seq<Sentence>, gone: set<Cell>)
    requires |k'| == |k|
    requires forall t :: 0 <= t < |k| ==> k'[t].cells == k[t].cells - gone
    ensures AllCells(k') == AllCells(k) - gone
  {
    forall c | c in AllCells(k) - gone ensures c in AllCells(k') {
      var t :| 0 <= t < |k| && c in k[t].cells;
      assert c in k'[t].cells;
    }
  }

  /** Taking one more cell out of a set, beyond those already taken. */
  lemma RemoveOneMore(x: set<Cell>, done: set<Cell>, known: set<Cell>, c: Cell)
    requires c !in known
    ensures (x - (done - known)) - {c} == x - ((done + {c}) - known)
  {
  }

  /** Each sentence of `k'` is the one of `k` with the mines `gone` taken
      out, its count lowered by one per mine taken, so that the number of
      its cells not counted as mines is kept. */
  predicate MinesTaken(k: seq<Sentence>, k': seq<Sentence>, gone: set<Cell>) {
    && |k'| == |k|
    && forall t :: 0 <= t < |k| ==>
         k'[t].cells == k[t].cells - gone && |k'[t].cells| - k'[t].count == |k[t].cells| - k[t].count
  }

  /** A set splits into the part outside `gone` and the part inside it. */
  lemma SplitCard(x: set<Cell>, gone: set<Cell>)
    ensures |x| == |x - gone| + |x * gone|
  {
    assert x == (x - gone) + (x * gone);
  }

  /** Taking out the mines `gone` lowers each count by the number of them
      among the sentence's cells. */
  lemma MinesTakenCount(k: seq<Sentence>, k': seq<Sentence>, gone: set<Cell>)
    requires MinesTaken(k, k', gone)
    ensures forall t :: 0 <= t < |k'| ==> k'[t].count == k[t].count - |k[t].cells * gone|
  {
    forall t | 0 <= t < |k'| ensures k'[t].count == k[t].count - |k[t].cells * gone| {
      SplitCard(k[t].cells, gone);
    }
  }

  /** Marking one more mine, beyond the cells of `done` not in `known`. */
  lemma MarkMineTaken(k: seq<Sentence>, r: AI, done: set<Cell>, known: set<Cell>, m: Cell)
    requires m !in done && m !in known
    requires MinesTaken(k, r.knowledge, done - known)
    ensures MinesTaken(k, MarkMine(r, m).knowledge, (done + {m}) - known)
  {
    var k' := MarkMine(r, m).knowledge;
    forall t | 0 <= t < |k|
      ensures k'[t].cells == k[t].cells - ((done + {m}) - known)
      ensures |k'[t].cells| - k'[t].count == |k[t].cells| - k[t].count
    {
      RemoveOneMore(k[t].cells, done, known, m);
    }
  }

  /** Taking away cells that meet a set makes it strictly smaller. */
  lemma ShrinksWhenMeeting(a: set<Cell>, gone: set<Cell>, c: Cell)
    requires c in a && c in gone
    ensures |a - gone| < |a|
  {
    assert a == (a - gone) + (a * gone);
    assert c in a * gone;
  }

  /** The inner loop over one sentence's known mines: each listed cell not
      yet recorded is marked as a mine. The order in which `add_knowledge`
      iterates the Python set is left open. */
  method MarkEachMine(ai: AI, cells: set<Cell>) returns (r: AI, marked: bool)
    ensures r.mines == ai.mines + cells
    ensures r.safes == ai.safes && r.movesMade == ai.movesMade
    ensures r.height == ai.height && r.width == ai.width
    ensures |r.knowledge| == |ai.knowledge|
    ensures forall t :: 0 <= t < |r.knowledge| ==>
      r.knowledge[t].cells == ai.knowledge[t].cells - (cells - ai.mines)
    ensures forall t :: 0 <= t < |r.knowledge| ==>
      r.knowledge[t].count == ai.knowledge[t].count - |ai.knowledge[t].cells * (cells - ai.mines)|
    ensures AllCells(r.knowledge) == AllCells(ai.knowledge) - (cells - ai.mines)
    ensures marked <==> cells - ai.mines != {}
    ensures !marked ==> r == ai
    ensures Valid(ai) ==> Valid(r)
    ensures forall truth :: Consistent(ai, truth) && cells <= truth ==> Consistent(r, truth)
  {
    r, marked := ai, false;
    var rest := cells;
    while rest != {}
      invariant MarkingMines(ai, cells, rest, r, marked)
      decreases rest
    {
      var m :| m in rest;
      MarkMineStep(ai, cells, rest, r, marked, m);
      if m !in r.mines {
        r := MarkMine(r, m);
        marked := true;
      }
      rest := rest - {m};
    }
    MarkedAllMines(ai, cells, r, marked);
  }

  /** Once every cell is visited, `MarkEachMine`'s state gives its contract. */
  lemma MarkedAllMines(ai: AI, cells: set<Cell>, r: AI, marked: bool)
    requires MarkingMines(ai, cells, {}, r, marked)
    ensures r.mines == ai.mines + cells
    ensures forall t :: 0 <= t < |r.knowledge| ==>
      r.knowledge[t].cells == ai.knowledge[t].cells - (cells - ai.mines)
    ensures forall t :: 0 <= t < |r.knowledge| ==>
      r.knowledge[t].count == ai.knowledge[t].count - |ai.knowledge[t].cells * (cells - ai.mines)|
    ensures AllCells(r.knowledge) == AllCells(ai.knowledge) - (cells - ai.mines)
    ensures marked <==> cells - ai.mines != {}
  {
    assert cells - {} == cells;
    MinesTakenCount(ai.knowledge, r.knowledge, cells - ai.mines);
    AllCellsMinus(ai.knowledge, r.knowledge, cells - ai.mines);
  }

  /** The state of `MarkEachMine` with the cells of `rest` still to visit. */
  ghost predicate MarkingMines(ai: AI, cells: set<Cell>, rest: set<Cell>, r: AI, marked: bool) {
    && rest <= cells
    && r.mines == ai.mines + (cells - rest)
    && r.safes == ai.safes && r.movesMade == ai.movesMade
    && r.height == ai.height && r.width == ai.width
    && MinesTaken(ai.knowledge, r.knowledge, (cells - rest) - ai.mines)
    && (marked <==> (cells - rest) - ai.mines != {})
    && (!marked ==> r == ai)
    && (Valid(ai) ==> Valid(r))
    && forall truth :: Consistent(ai, truth) && cells <= truth ==> Consistent(r, truth)
  }

  /** One visit of `MarkEachMine`: the cell `m` is marked unless already recorded. */
  lemma MarkMineStep(ai: AI, cells: set<Cell>, rest: set<Cell>, r: AI, marked: bool, m: Cell)
    requires MarkingMines(ai, cells, rest, r, marked) && m in rest
    ensures m !in r.mines ==> MarkingMines(ai, cells, rest - {m}, MarkMine(r, m), true)
    ensures m in r.mines ==> MarkingMines(ai, cells, rest - {m}, r, marked)
  {
    var done := cells - rest;
    assert cells - (rest - {m}) == done + {m};
    if m !in r.mines {
      forall truth | Consistent(ai, truth) && cells <= truth ensures Consistent(MarkMine(r, m), truth) {
        MarkMineConsistent(r, m, truth);
      }
      MarkMineTaken(ai.knowledge, r, done, ai.mines, m);
      assert m in (done + {m}) - ai.mines;
    } else {
      assert (done + {m}) - ai.mines == done - ai.mines;
    }
  }

  /** The inner loop over one sentence's known safes: each listed cell not
      yet recorded is marked as safe. */
  method MarkEachSafe(ai: AI, cells: set<Cell>) returns (r: AI, marked: bool)
    ensures r.safes == ai.safes + cells
    ensures r.mines == ai.mines && r.movesMade == ai.movesMade
    ensures r.height == ai.height && r.width == ai.width
    ensures |r.knowledge| == |ai.knowledge|
    ensures forall t :: 0 <= t < |r.knowledge| ==>
      r.knowledge[t].cells == ai.knowledge[t].cells - (cells - ai.safes)
    ensures forall t :: 0 <= t < |r.knowledge| ==> r.knowledge[t].count == ai.knowledge[t].count
    ensures AllCells(r.knowledge) == AllCells(ai.knowledge) - (cells - ai.safes)
    ensures marked <==> cells - ai.safes != {}
    ensures !marked ==> r == ai
    ensures Valid(ai) ==> Valid(r)
    ensures forall truth :: Consistent(ai, truth) && cells !! truth ==> Consistent(r, truth)
  {
    r, marked := ai, false;
    var rest := cells;
    while rest != {}
      invariant MarkingSafes(ai, cells, rest, r, marked)
      decreases rest
    {
      var s :| s in rest;
      MarkSafeStep(ai, cells, rest, r, marked, s);
      if s !in r.safes {
        r := MarkSafe(r, s);
        marked := true;
      }
      rest := rest - {s};
    }
    MarkedAllSafes(ai, cells, r, marked);
  }

  /** The state of `MarkEachSafe` with the cells of `rest` still to visit. */
  ghost predicate MarkingSafes(ai: AI, cells: set<Cell>, rest: set<Cell>, r: AI, marked: bool) {
    && rest <= cells
    && r.safes == ai.safes + (cells - rest)
    && r.mines == ai.mines && r.movesMade == ai.movesMade
    && r.height == ai.height && r.width == ai.width
    && |r.knowledge| == |ai.knowledge|
    && (forall t :: 0 <= t < |r.knowledge| ==>
          r.knowledge[t].cells == ai.knowledge[t].cells - ((cells - rest) - ai.safes))
    && (forall t :: 0 <= t < |r.knowledge| ==> r.knowledge[t].count == ai.knowledge[t].count)
    && (marked <==> (cells - rest) - ai.safes != {})
    && (!marked ==> r == ai)
    && (Valid(ai) ==> Valid(r))
    && forall truth :: Consistent(ai, truth) && cells !! truth ==> Consistent(r, truth)
  }

  /** One visit of `MarkEachSafe`: the cell `s` is marked unless already recorded. */
  lemma MarkSafeStep(ai: AI, cells: set<Cell>, rest: set<Cell>, r: AI, marked: bool, s: Cell)
    requires MarkingSafes(ai, cells, rest, r, marked) && s in rest
    ensures s !in r.safes ==> MarkingSafes(ai, cells, rest - {s}, MarkSafe(r, s), true)
    ensures s in r.safes ==> MarkingSafes(ai, cells, rest - {s}, r, marked)
  {
    var done := cells - rest;
    assert cells - (rest - {s}) == done + {s};
    if s !in r.safes {
      forall truth | Consistent(ai, truth) && cells !! truth ensures Consistent(MarkSafe(r, s), truth) {
        MarkSafeConsistent(r, s, truth);
      }
      var next := MarkSafe(r, s);
      forall t | 0 <= t < |next.knowledge|
        ensures next.knowledge[t].cells == ai.knowledge[t].cells - ((done + {s}) - ai.safes)
      {
        assert next.knowledge[t].cells == r.knowledge[t].cells - {s};
        RemoveOneMore(ai.knowledge[t].cells, done, ai.safes, s);
      }
      assert s in (done + {s}) - ai.safes;
    } else {
      assert (done + {s}) - ai.safes == done - ai.safes;
    }
  }

  /** Once every cell is visited, `MarkEachSafe`'s state is its result. */
  lemma MarkedAllSafes(ai: AI, cells: set<Cell>, r: AI, marked: bool)
    requires MarkingSafes(ai, cells, {}, r, marked)
    ensures r.safes == ai.safes + cells
    ensures forall t :: 0 <= t < |r.knowledge| ==>
      r.knowledge[t].cells == ai.knowledge[t].cells - (cells - ai.safes)
    ensures AllCells(r.knowledge) == AllCells(ai.knowledge) - (cells - ai.safes)
    ensures marked <==> cells - ai.safes != {}
  {
    assert cells - {} == cells;
    AllCellsMinus(ai.knowledge, r.knowledge, cells - ai.safes);
  }

  /** The sentence `s` after the cells of `mines` have been marked as mines
      and then those of `safes` as safe: all of them leave it, and its count
      drops by one per cell of `mines` it mentioned. */
  function Reduce(s: Sentence, mines: set<Cell>, safes: set<Cell>): Sentence {
    Sentence(s.cells - mines - safes, s.count - |s.cells * mines|)
  }

  /** `r` is `ai` with some cells newly recorded as mines or as safe, each
      of them mentioned by a sentence of `ai`, and every sentence of `ai`
      reduced by those cells. */
  predicate ReducedBy(ai: AI, r: AI) {
    && r.movesMade == ai.movesMade && r.height == ai.height && r.width == ai.width
    && ai.mines <= r.mines && ai.safes <= r.safes
    && r.mines - ai.mines <= AllCells(ai.knowledge)
    && r.safes - ai.safes <= AllCells(ai.knowledge)
    && |r.knowledge| == |ai.knowledge|
    && forall t :: 0 <= t < |ai.knowledge| ==>
         r.knowledge[t] == Reduce(ai.knowledge[t], r.mines - ai.mines, r.safes - ai.safes)
  }

  /** Recording nothing reduces nothing. */
  lemma ReducedByNothing(ai: AI)
    ensures ReducedBy(ai, ai)
  {
    forall t | 0 <= t < |ai.knowledge|
      ensures ai.knowledge[t] == Reduce(ai.knowledge[t], ai.mines - ai.mines, ai.safes - ai.safes)
    {
      var x := ai.knowledge[t].cells;
      assert ai.mines - ai.mines == {} && ai.safes - ai.safes == {};
      assert x * {} == {};
      assert x - {} - {} == x;
    }
  }

  /** Reducing twice is reducing once by both, when the later mines were
      still mentioned after the first reduction. */
  lemma ReduceTwice(s: Sentence, m1: set<Cell>, s1: set<Cell>, m2: set<Cell>, s2: set<Cell>)
    requires m2 !! m1 && m2 !! s1
    ensures Reduce(Reduce(s, m1, s1), m2, s2) == Reduce(s, m1 + m2, s1 + s2)
  {
    var x := s.cells;
    assert (x - m1 - s1) * m2 == x * m2;
    assert x * (m1 + m2) == x * m1 + x * m2;
    assert (x * m1) !! (x * m2);
    assert x - m1 - s1 - m2 - s2 == x - (m1 + m2) - (s1 + s2);
  }

  /** Two reductions in a row make one. */
  lemma ReducedByTwice(a: AI, b: AI, c: AI)
    requires ReducedBy(a, b) && ReducedBy(b, c)
    ensures ReducedBy(a, c)
  {
    var m1, s1 := b.mines - a.mines, b.safes - a.safes;
    var m2, s2 := c.mines - b.mines, c.safes - b.safes;
    forall t | 0 <= t < |a.knowledge| ensures b.knowledge[t].cells == a.knowledge[t].cells - (m1 + s1) {
      assert a.knowledge[t].cells - m1 - s1 == a.knowledge[t].cells - (m1 + s1);
    }
    AllCellsMinus(a.knowledge, b.knowledge, m1 + s1);
    assert m2 !! m1 && m2 !! s1;
    assert c.mines - a.mines == m1 + m2;
    assert c.safes - a.safes == s1 + s2;
    forall t | 0 <= t < |a.knowledge|
      ensures c.knowledge[t] == Reduce(a.knowledge[t], c.mines - a.mines, c.safes - a.safes)
    {
      ReduceTwice(a.knowledge[t], m1, s1, m2, s2);
    }
  }

  /** The closure's work on sentence `i`: mark what it reports as mines,
      then what it (as updated) reports as safe. */
  method ResolveSentence(ai: AI, i: int) returns (r: AI, marked: bool)
    requires 0 <= i < |ai.knowledge|
    ensures r.movesMade == ai.movesMade
    ensures ai.mines <= r.mines && ai.safes <= r.safes
    ensures r.height == ai.height && r.width == ai.width
    ensures |r.knowledge| == |ai.knowledge|
    ensures AllCells(r.knowledge) <= AllCells(ai.knowledge)
    ensures marked ==> |AllCells(r.knowledge)| < |AllCells(ai.knowledge)|
    ensures !marked ==> r == ai
    ensures !marked <==> ai.knowledge[i].KnownMines() <= ai.mines && ai.knowledge[i].KnownSafes() <= ai.safes
    ensures r.mines == ai.mines + ai.knowledge[i].KnownMines()
    ensures r.safes == ai.safes + Reduce(ai.knowledge[i], ai.knowledge[i].KnownMines() - ai.mines, {}).KnownSafes()
    ensures ReducedBy(ai, r)
    ensures Valid(ai) ==> Valid(r)
    ensures forall truth :: Consistent(ai, truth) ==> Consistent(r, truth)
  {
    var mines := ai.knowledge[i].KnownMines();
    forall truth | Consistent(ai, truth) ensures mines <= truth {
      KnownMinesSound(ai.knowledge[i], truth);
    }
    var minesMarked;
    r, minesMarked := MarkEachMine(ai, mines);
    if minesMarked {
      ghost var m :| m in mines - ai.mines;
      ShrinksWhenMeeting(AllCells(ai.knowledge), mines - ai.mines, m);
    }

    ghost var middle := r;
    var safes := r.knowledge[i].KnownSafes();
    forall truth | Consistent(r, truth) ensures safes !! truth {
      KnownSafesSound(r.knowledge[i], truth);
    }
    var safesMarked;
    r, safesMarked := MarkEachSafe(r, safes);
    if safesMarked {
      ghost var s :| s in safes - middle.safes;
      ShrinksWhenMeeting(AllCells(middle.knowledge), safes - middle.safes, s);
    }
    marked := minesMarked || safesMarked;
    ResolvedReduces(ai, i, middle, r);
  }

  /** Marking the mines sentence `i` reports and then the safes it reports
      afterwards reduces every sentence by the cells newly recorded. */
  lemma ResolvedReduces(ai: AI, i: int, middle: AI, r: AI)
    requires 0 <= i < |ai.knowledge|
    requires var mines := ai.knowledge[i].KnownMines();
      && middle.mines == ai.mines + mines && middle.safes == ai.safes
      && middle.movesMade == ai.movesMade && middle.height == ai.height && middle.width == ai.width
      && |middle.knowledge| == |ai.knowledge|
      && (forall t :: 0 <= t < |middle.knowledge| ==>
            middle.knowledge[t].cells == ai.knowledge[t].cells - (mines - ai.mines))
      && (forall t :: 0 <= t < |middle.knowledge| ==>
            middle.knowledge[t].count == ai.knowledge[t].count - |ai.knowledge[t].cells * (mines - ai.mines)|)
    requires var safes := middle.knowledge[i].KnownSafes();
      && r.safes == middle.safes + safes && r.mines == middle.mines
      && r.movesMade == middle.movesMade && r.height == middle.height && r.width == middle.width
      && |r.knowledge| == |middle.knowledge|
      && (forall t :: 0 <= t < |r.knowledge| ==>
            r.knowledge[t].cells == middle.knowledge[t].cells - (safes - middle.safes))
      && (forall t :: 0 <= t < |r.knowledge| ==> r.knowledge[t].count == middle.knowledge[t].count)
    ensures middle.knowledge[i] == Reduce(ai.knowledge[i], ai.knowledge[i].KnownMines() - ai.mines, {})
    ensures ReducedBy(ai, r)
  {
    var mines, safes := ai.knowledge[i].KnownMines(), middle.knowledge[i].KnownSafes();
    var m, sf := mines - ai.mines, safes - middle.safes;
    assert middle.knowledge[i].cells == ai.knowledge[i].cells - m - {};
    assert r.mines - ai.mines == m && r.safes - ai.safes == sf;
    forall c | c in m ensures c in AllCells(ai.knowledge) {
      assert c in ai.knowledge[i].cells;
    }
    forall c | c in sf ensures c in AllCells(ai.knowledge) {
      assert c in ai.knowledge[i].cells;
    }
    forall t | 0 <= t < |ai.knowledge| ensures r.knowledge[t] == Reduce(ai.knowledge[t], m, sf) {
      assert r.knowledge[t].cells == ai.knowledge[t].cells - m - sf;
    }
  }

  /** The state the closure's work on sentence `i` leads to: its known mines
      recorded, then the known safes of the sentence as updated, and every
      sentence reduced by exactly the cells newly recorded. */
  function Resolved(ai: AI, i: int): AI
    requires 0 <= i < |ai.knowledge|
  {
    var m := ai.knowledge[i].KnownMines() - ai.mines;
    var sf := Reduce(ai.knowledge[i], m, {}).KnownSafes() - ai.safes;
    ai.(mines := ai.mines + m, safes := ai.safes + sf,
        knowledge := seq(|ai.knowledge|, t requires 0 <= t < |ai.knowledge| => Reduce(ai.knowledge[t], m, sf)))
  }

  /** The first `n` steps of one closure pass: sentences 0 to n - 1 resolved
      in list order, each against the state the earlier ones left. */
  function PassUpTo(ai: AI, n: nat): (r: AI)
    requires n <= |ai.knowledge|
    ensures |r.knowledge| == |ai.knowledge|
  {
    if n == 0 then ai else Resolved(PassUpTo(ai, n - 1), n - 1)
  }

  /** `ResolveSentence`'s contract pins its result down to `Resolved`. */
  lemma ResolvedIsExact(ai: AI, i: int, r: AI)
    requires 0 <= i < |ai.knowledge|
    requires r.mines == ai.mines + ai.knowledge[i].KnownMines()
    requires r.safes == ai.safes + Reduce(ai.knowledge[i], ai.knowledge[i].KnownMines() - ai.mines, {}).KnownSafes()
    requires ReducedBy(ai, r)
    ensures r == Resolved(ai, i)
  {
    var e := Resolved(ai, i);
    var mines := ai.knowledge[i].KnownMines();
    var m := mines - ai.mines;
    var safes := Reduce(ai.knowledge[i], m, {}).KnownSafes();
    AddedPart(ai.mines, mines, r.mines);
    AddedPart(ai.safes, safes, r.safes);
    assert r.knowledge == e.knowledge by {
      forall t | 0 <= t < |ai.knowledge| ensures r.knowledge[t] == e.knowledge[t] {
      }
    }
    AddedPart(ai.mines, mines, e.mines);
    AddedPart(ai.safes, safes, e.safes);
  }

  /** What adding `x` to `a` newly records is `x - a`; it determines the union. */
  lemma AddedPart(a: set<Cell>, x: set<Cell>, b: set<Cell>)
    ensures b == a + x <==> a <= b && b - a == x - a
  {
    if a <= b && b - a == x - a {
      forall c | c in b ensures c in a + x {
        if c !in a {
          assert c in b - a;
        }
      }
      forall c | c in a + x ensures c in b {
        if c !in a {
          assert c in x - a;
        }
      }
    }
  }

  /** One pass of the closure loop over the knowledge, in list order;
      `changed` tells whether any cell was newly recorded. */
  method ClosurePass(ai: AI) returns (r: AI, changed: bool)
    ensures r.movesMade == ai.movesMade
    ensures ai.mines <= r.mines && ai.safes <= r.safes
    ensures r.height == ai.height && r.width == ai.width
    ensures |r.knowledge| == |ai.knowledge|
    ensures changed ==> |AllCells(r.knowledge)| < |AllCells(ai.knowledge)|
    ensures !changed ==> r == ai && Saturated(r)
    ensures ReducedBy(ai, r)
    ensures r == PassUpTo(ai, |ai.knowledge|)
    ensures Valid(ai) ==> Valid(r)
    ensures forall truth :: Consistent(ai, truth) ==> Consistent(r, truth)
  {
    r, changed := ai, false;
    PassStart(ai);
    var i := 0;
    while i < |r.knowledge|
      invariant Passing(ai, r, i, changed)
      invariant i <= |ai.knowledge| && r == PassUpTo(ai, i)
    {
      r, changed := ResolveNext(ai, r, i, changed);
      i := i + 1;
    }
    PassDone(ai, r, changed);
  }

  /** The body of a closure pass: resolves sentence `i` and notes whether
      anything was recorded so far. */
  method ResolveNext(ai: AI, r: AI, i: int, changed: bool) returns (r': AI, changed': bool)
    requires Passing(ai, r, i, changed) && i < |r.knowledge|
    requires i < |ai.knowledge| && r == PassUpTo(ai, i)
    ensures Passing(ai, r', i + 1, changed')
    ensures r' == PassUpTo(ai, i + 1)
  {
    var marked;
    r', marked := ResolveSentence(r, i);
    PassAdvances(ai, r, r', i, changed, marked);
    ResolvedIsExact(r, i, r');
    changed' := changed || marked;
  }


  /** The state of a closure pass before it visits sentence `i`. */
  ghost predicate Passing(ai: AI, r: AI, i: int, changed: bool) {
    && 0 <= i <= |r.knowledge|
    && ReducedBy(ai, r)
    && AllCells(r.knowledge) <= AllCells(ai.knowledge)
    && (changed ==> |AllCells(r.knowledge)| < |AllCells(ai.knowledge)|)
    && (!changed ==> r == ai && SaturatedBelow(r, i))
    && (Valid(ai) ==> Valid(r))
    && (forall truth :: Consistent(ai, truth) ==> Consistent(r, truth))
  }

  /** A pass that has visited every sentence reduced every sentence by what
      it recorded; if it recorded nothing, every sentence is saturated. */
  lemma PassDone(ai: AI, r: AI, changed: bool)
    requires Passing(ai, r, |r.knowledge|, changed)
    ensures r.movesMade == ai.movesMade
    ensures ai.mines <= r.mines && ai.safes <= r.safes
    ensures r.height == ai.height && r.width == ai.width
    ensures |r.knowledge| == |ai.knowledge|
    ensures changed ==> |AllCells(r.knowledge)| < |AllCells(ai.knowledge)|
    ensures !changed ==> r == ai && Saturated(r)
    ensures ReducedBy(ai, r)
    ensures Valid(ai) ==> Valid(r)
    ensures forall truth :: Consistent(ai, truth) ==> Consistent(r, truth)
  {
  }

  /** A pass starts from the agent itself, having recorded nothing. */
  lemma PassStart(ai: AI)
    ensures Passing(ai, ai, 0, false)
  {
    ReducedByNothing(ai);
  }

  /** Resolving sentence `i` moves the pass state past it. */
  lemma PassAdvances(ai: AI, before: AI, r: AI, i: int, changed: bool, marked: bool)
    requires Passing(ai, before, i, changed) && i < |before.knowledge|
    requires r.mines == before.mines + before.knowledge[i].KnownMines()
    requires r.safes == before.safes + Reduce(before.knowledge[i], before.knowledge[i].KnownMines() - before.mines, {}).KnownSafes()
    requires ReducedBy(before, r)
    requires AllCells(r.knowledge) <= AllCells(before.knowledge)
    requires marked ==> |AllCells(r.knowledge)| < |AllCells(before.knowledge)|
    requires !marked ==> r == before
    requires !marked <==> before.knowledge[i].KnownMines() <= before.mines && before.knowledge[i].KnownSafes() <= before.safes
    requires Valid(before) ==> Valid(r)
    requires forall truth :: Consistent(before, truth) ==> Consistent(r, truth)
    ensures Passing(ai, r, i + 1, changed || marked)
  {
    ReducedByTwice(ai, before, r);
    if !changed && !marked {
      SaturatedBelowExtends(r, i);
    }
  }

  /** Every sentence before position `i` reports only recorded cells. */
  predicate SaturatedBelow(ai: AI, i: int) {
    forall t :: 0 <= t < i && t < |ai.knowledge| ==>
      ai.knowledge[t].KnownMines() <= ai.mines && ai.knowledge[t].KnownSafes() <= ai.safes
  }

  /** A sentence that reports only recorded cells extends the saturated prefix. */
  lemma SaturatedBelowExtends(ai: AI, i: int)
    requires 0 <= i < |ai.knowledge| && SaturatedBelow(ai, i)
    requires ai.knowledge[i].KnownMines() <= ai.mines && ai.knowledge[i].KnownSafes() <= ai.safes
    ensures SaturatedBelow(ai, i + 1)
  {
  }

  /** Stage 4 of `add_knowledge`: repeats full passes over the knowledge until
      a pass records nothing new. Each recorded cell is removed from every
      sentence, so the union of the sentences' cells shrinks and the loop ends. */
  method Closure(ai: AI) returns (r: AI)
    ensures r.movesMade == ai.movesMade
    ensures ai.mines <= r.mines && ai.safes <= r.safes
    ensures r.height == ai.height && r.width == ai.width
    ensures |r.knowledge| == |ai.knowledge|
    ensures Saturated(r)
    ensures ReducedBy(ai, r)
    ensures Valid(ai) ==> Valid(r)
    ensures forall truth :: Consistent(ai, truth) ==> Consistent(r, truth)
  {
    r := ai;
    ReducedByNothing(ai);
    var changed := true;
    while changed
      invariant ReducedBy(ai, r)
      invariant r.movesMade == ai.movesMade
      invariant ai.mines <= r.mines && ai.safes <= r.safes
      invariant r.height == ai.height && r.width == ai.width
      invariant |r.knowledge| == |ai.knowledge|
      invariant !changed ==> Saturated(r)
      invariant Valid(ai) ==> Valid(r)
      invariant forall truth :: Consistent(ai, truth) ==> Consistent(r, truth)
      decreases |AllCells(r.knowledge)| + (if changed then 1 else 0)
    {
      ghost var before := r;
      r, changed := ClosurePass(r);
      ReducedByTwice(ai, before, r);
    }
  }

  /** One row `i` of the scan around `cell`: adds the row's unknown
      in-bounds neighbours to `unknown` and discounts its known mines. */
  method ScanRow(height: int, width: int, mines: set<Cell>, safes: set<Cell>, cell: Cell, i: int,
                 unknown: set<Cell>, adjusted: int, ghost minesSeen: set<Cell>)
    returns (unknown': set<Cell>, adjusted': int, ghost minesSeen': set<Cell>)
    requires cell.row - 1 <= i <= cell.row + 1
    requires forall n :: n in unknown ==> n.row < i
    requires forall n :: n in minesSeen ==> n.row < i
    ensures forall n :: n in unknown' <==>
      (n in unknown || (n.row == i && IsNeighbour(cell, n, height, width) && n !in mines && n !in safes))
    ensures forall n :: n in minesSeen' <==>
      (n in minesSeen || (n.row == i && IsNeighbour(cell, n, height, width) && n in mines))
    ensures adjusted' + |minesSeen'| == adjusted + |minesSeen|
  {
    unknown', adjusted', minesSeen' := unknown, adjusted, minesSeen;
    var j := cell.col - 1;
    while j < cell.col + 2
      invariant cell.col - 1 <= j <= cell.col + 2
      invariant forall n :: n in unknown' <==>
        (n in unknown || (n.row == i && n.col < j && IsNeighbour(cell, n, height, width) && n !in mines && n !in safes))
      invariant forall n :: n in minesSeen' <==>
        (n in minesSeen || (n.row == i && n.col < j && IsNeighbour(cell, n, height, width) && n in mines))
      invariant adjusted' + |minesSeen'| == adjusted + |minesSeen|
    {
      var here := Cell(i, j);
      assert forall n: Cell :: n.row == i && n.col == j ==> n == here;
      if here != cell && 0 <= i < height && 0 <= j < width {
        if here in mines {
          assert here !in minesSeen';
          minesSeen' := minesSeen' + {here};
          adjusted' := adjusted' - 1;
        } else if here !in safes {
          unknown' := unknown' + {here};
        }
      }
      j := j + 1;
    }
  }

  /** The in-bounds neighbours of `cell` whose status is unknown, and the
      observed count less the neighbours already known to be mines, by the
      3 × 3 row-major scan of `add_knowledge` in minesweeper.py. */
  method ScanNeighbours(height: int, width: int, mines: set<Cell>, safes: set<Cell>, cell: Cell, count: int)
    returns (unknown: set<Cell>, adjusted: int)
    ensures unknown == Neighbours(cell, height, width) - mines - safes
    ensures adjusted == count - |Neighbours(cell, height, width) * mines|
  {
    ghost var around := Neighbours(cell, height, width);
    ghost var minesSeen: set<Cell> := {};
    unknown, adjusted := {}, count;
    var i := cell.row - 1;
    while i < cell.row + 2
      invariant cell.row - 1 <= i <= cell.row + 2
      invariant forall n :: n in unknown <==> n in around && n !in mines && n !in safes && n.row < i
      invariant forall n :: n in minesSeen <==> n in around && n in mines && n.row < i
      invariant adjusted == count - |minesSeen|
    {
      unknown, adjusted, minesSeen := ScanRow(height, width, mines, safes, cell, i, unknown, adjusted, minesSeen);
      i := i + 1;
    }
    assert minesSeen == around * mines;
  }

  /** A true observation yields a true sentence: the unknown neighbours hold
      exactly the observed count less the known mines among the neighbours. */
  lemma ObservationSound(around: set<Cell>, mines: set<Cell>, safes: set<Cell>, truth: set<Cell>)
    requires mines <= truth && safes !! truth
    ensures |(around - mines - safes) * truth| == |around * truth| - |around * mines|
  {
    var known, rest := around * mines, (around - mines - safes) * truth;
    assert around * truth == known + rest;
    assert known !! rest;
  }

  /** Stages 1 to 3 of `add_knowledge`: record the played cell as a move and as
      safe, then append the sentence about its unknown neighbours if any. */
  method Observe(ai: AI, cell: Cell, count: int) returns (r: AI)
    ensures r.height == ai.height && r.width == ai.width
    ensures r.movesMade == ai.movesMade + {cell}
    ensures r.safes == ai.safes + {cell} && r.mines == ai.mines
    ensures var around := Neighbours(cell, ai.height, ai.width);
            var unknown := around - ai.mines - ai.safes;
            && |r.knowledge| == |ai.knowledge| + (if unknown == {} then 0 else 1)
            && (unknown != {} ==>
                  r.knowledge[|ai.knowledge|] == Sentence(unknown, count - |around * ai.mines|))
    ensures forall t :: 0 <= t < |ai.knowledge| ==> r.knowledge[t] == ai.knowledge[t].MarkSafe(cell)
    ensures Valid(ai) ==> Valid(r)
    ensures forall truth ::
      Consistent(ai, truth) && cell !in truth && count == |Neighbours(cell, ai.height, ai.width) * truth|
      ==> Consistent(r, truth)
  {
    var played := ai.(movesMade := ai.movesMade + {cell});
    var marked := MarkSafe(played, cell);
    var unknown, adjusted := ScanNeighbours(marked.height, marked.width, marked.mines, marked.safes, cell, count);
    r := marked;
    if unknown != {} {
      r := marked.(knowledge := marked.knowledge + [Sentence(unknown, adjusted)]);
      if Valid(ai) {
        AppendSentenceValid(marked, Sentence(unknown, adjusted));
      }
    }
    forall truth | Consistent(ai, truth) && cell !in truth
                   && count == |Neighbours(cell, ai.height, ai.width) * truth|
      ensures Consistent(r, truth)
    {
      MarkSafeConsistent(played, cell, truth);
      ObservationSound(Neighbours(cell, ai.height, ai.width), ai.mines, ai.safes + {cell}, truth);
      if unknown != {} {
        AppendSentenceConsistent(marked, Sentence(unknown, adjusted), truth);
      }
    }
  }

  /** Appending a sentence about unknown cells keeps the agent valid. */
  lemma AppendSentenceValid(ai: AI, s: Sentence)
    requires Valid(ai) && s.cells !! (ai.mines + ai.safes)
    ensures Valid(ai.(knowledge := ai.knowledge + [s]))
  {
  }

  /** Appending a sentence true of the board keeps the agent consistent. */
  lemma AppendSentenceConsistent(ai: AI, s: Sentence, truth: set<Cell>)
    requires Consistent(ai, truth) && Holds(s, truth)
    ensures Consistent(ai.(knowledge := ai.knowledge + [s]), truth)
  {
  }

  /** `a` can be subtracted from `b`: a structurally different sentence whose
      non-empty cell set lies inside `b`'s (not necessarily strictly). */
  predicate Reducible(a: Sentence, b: Sentence) {
    a != b && a.cells != {} && a.cells <= b.cells
  }

  /** `s` is the difference of two sentences of `k`, one reducible from the other. */
  ghost predicate Derivable(k: seq<Sentence>, s: Sentence) {
    exists p, q :: 0 <= p < |k| && 0 <= q < |k| && Reducible(k[p], k[q]) && s == Difference(k[q], k[p])
  }

  /** Every sentence of `batch` is derivable from `k`, new to `k`, and
      appears in `batch` only once. */
  ghost predicate SoundBatch(k: seq<Sentence>, batch: seq<Sentence>) {
    && (forall t :: 0 <= t < |batch| ==> Derivable(k, batch[t]) && batch[t] !in k)
    && (forall t, u :: 0 <= t < u < |batch| ==> batch[t] != batch[u])
  }

  /** If `k[p]` can be subtracted from `k[q]`, their difference is in `k` or in `batch`. */
  predicate Covered(k: seq<Sentence>, batch: seq<Sentence>, p: int, q: int)
    requires 0 <= p < |k| && 0 <= q < |k|
  {
    Reducible(k[p], k[q]) ==> Difference(k[q], k[p]) in k || Difference(k[q], k[p]) in batch
  }

  /** What the body of the inference loop derives from the ordered pair
      (a, b): `b` less `a` when `a` is reducible into `b`, failing that `a`
      less `b` when `b` is reducible into `a`, and nothing otherwise. */
  function Candidate(a: Sentence, b: Sentence): Option<Sentence> {
    if Reducible(a, b) then Some(Difference(b, a))
    else if Reducible(b, a) then Some(Difference(a, b))
    else None
  }

  /** Appends `derived` to the batch unless it equals a sentence of `k` or of the batch. */
  method AddDerived(k: seq<Sentence>, batch: seq<Sentence>, derived: Sentence) returns (batch': seq<Sentence>)
    requires SoundBatch(k, batch)
    requires Derivable(k, derived)
    ensures SoundBatch(k, batch')
    ensures batch' == batch || batch' == batch + [derived]
    ensures derived in k || derived in batch'
  {
    batch' := batch;
    if derived !in k && derived !in batch {
      batch' := batch + [derived];
    }
  }

  /** The body of the inference loop for the ordered pair (k[i], k[j]). */
  method InferPair(k: seq<Sentence>, batch: seq<Sentence>, i: int, j: int) returns (batch': seq<Sentence>)
    requires 0 <= i < |k| && 0 <= j < |k|
    requires SoundBatch(k, batch)
    ensures SoundBatch(k, batch')
    ensures batch <= batch' && |batch'| <= |batch| + 1
    ensures Covered(k, batch', i, j)
    ensures !Reducible(k[i], k[j]) && Reducible(k[j], k[i]) ==> Difference(k[i], k[j]) in k + batch'
    ensures !Reducible(k[i], k[j]) && !Reducible(k[j], k[i]) ==> batch' == batch
    ensures batch' == batch || (Candidate(k[i], k[j]).Some? && batch' == batch + [Candidate(k[i], k[j]).value])
  {
    batch' := batch;
    var s1, s2 := k[i], k[j];
    if s1 != s2 {
      if s1.cells != {} && s1.cells <= s2.cells {
        batch' := AddDerived(k, batch, Difference(s2, s1));
      } else if s2.cells != {} && s2.cells <= s1.cells {
        assert Reducible(k[j], k[i]);
        batch' := AddDerived(k, batch, Difference(s1, s2));
      }
    }
  }

  /** Row-major order on the pairs (i, j) the inference loop visits. */
  predicate PairBefore(a: (int, int), b: (int, int)) {
    a.0 < b.0 || (a.0 == b.0 && a.1 < b.1)
  }

  /** (p, q) is the first pair, in visiting order, from which the loop derives `d`. */
  ghost predicate FirstDerivedAt(k: seq<Sentence>, d: Sentence, p: int, q: int) {
    && 0 <= p < |k| && 0 <= q < |k|
    && Candidate(k[p], k[q]) == Some(d)
    && forall p', q' :: 0 <= p' < |k| && 0 <= q' < |k| && PairBefore((p', q'), (p, q)) ==>
         Candidate(k[p'], k[q']) != Some(d)
  }

  /** Some pair of `k` derives `d`, so a first one exists. */
  ghost predicate FirstDerived(k: seq<Sentence>, d: Sentence) {
    exists p, q :: FirstDerivedAt(k, d, p, q)
  }

  /** Two pairs that both first derive `d` are the same pair. */
  lemma FirstDerivedUnique(k: seq<Sentence>, d: Sentence, p: int, q: int, p': int, q': int)
    requires FirstDerivedAt(k, d, p, q) && FirstDerivedAt(k, d, p', q')
    ensures p == p' && q == q'
  {
  }

  /** What the pair (p, q) derives is in `k` or in `batch`. */
  predicate Seen(k: seq<Sentence>, batch: seq<Sentence>, p: int, q: int)
    requires 0 <= p < |k| && 0 <= q < |k|
  {
    Candidate(k[p], k[q]).Some? ==> Candidate(k[p], k[q]).value in k || Candidate(k[p], k[q]).value in batch
  }

  /** Every pair before (i, j) is seen by `batch`. */
  ghost predicate SeenBefore(k: seq<Sentence>, batch: seq<Sentence>, i: int, j: int) {
    forall p, q :: 0 <= p < |k| && 0 <= q < |k| && PairBefore((p, q), (i, j)) ==> Seen(k, batch, p, q)
  }

  /** The state of the inference loop before it visits the pair (i, j): what
      every earlier pair derives is known or in the batch, and the batch lists
      its sentences in the order of the pairs `firsts` that first derived them. */
  ghost predicate Scanned(k: seq<Sentence>, batch: seq<Sentence>, firsts: seq<(int, int)>, i: int, j: int) {
    && SoundBatch(k, batch)
    && SeenBefore(k, batch, i, j)
    && |firsts| == |batch|
    && (forall t :: 0 <= t < |batch| ==>
          FirstDerivedAt(k, batch[t], firsts[t].0, firsts[t].1) && PairBefore(firsts[t], (i, j)))
    && (forall t, u :: 0 <= t < u < |batch| ==> PairBefore(firsts[t], firsts[u]))
  }

  /** Growing the batch keeps earlier pairs seen; seeing (i, j) extends the prefix. */
  lemma SeenExtends(k: seq<Sentence>, batch: seq<Sentence>, next: seq<Sentence>, i: int, j: int)
    requires 0 <= i < |k| && 0 <= j < |k|
    requires SeenBefore(k, batch, i, j) && batch <= next && Seen(k, next, i, j)
    ensures SeenBefore(k, next, i, j + 1)
  {
    forall p, q | 0 <= p < |k| && 0 <= q < |k| && PairBefore((p, q), (i, j + 1))
      ensures Seen(k, next, p, q)
    {
      if PairBefore((p, q), (i, j)) {
        assert Seen(k, batch, p, q);
        if Candidate(k[p], k[q]).Some? && Candidate(k[p], k[q]).value in batch {
          var t :| 0 <= t < |batch| && batch[t] == Candidate(k[p], k[q]).value;
          assert next[t] == batch[t];
        }
      }
    }
  }

  /** A sentence appended at (i, j) is new, so no earlier pair derived it. */
  lemma AppendedIsFirst(k: seq<Sentence>, batch: seq<Sentence>, i: int, j: int, d: Sentence)
    requires 0 <= i < |k| && 0 <= j < |k|
    requires SeenBefore(k, batch, i, j)
    requires Candidate(k[i], k[j]) == Some(d) && d !in k && d !in batch
    ensures FirstDerivedAt(k, d, i, j)
  {
    forall p', q' | 0 <= p' < |k| && 0 <= q' < |k| && PairBefore((p', q'), (i, j))
      ensures Candidate(k[p'], k[q']) != Some(d)
    {
      assert Seen(k, batch, p', q');
    }
  }

  /** Visiting the pair (i, j) moves the loop state past it; a sentence the
      pair appends is first derived there. */
  lemma ScanStep(k: seq<Sentence>, batch: seq<Sentence>, firsts: seq<(int, int)>, i: int, j: int, next: seq<Sentence>)
    requires 0 <= i < |k| && 0 <= j < |k|
    requires Scanned(k, batch, firsts, i, j)
    requires SoundBatch(k, next)
    requires Covered(k, next, i, j)
    requires !Reducible(k[i], k[j]) && Reducible(k[j], k[i]) ==> Difference(k[i], k[j]) in k + next
    requires next == batch || (Candidate(k[i], k[j]).Some? && next == batch + [Candidate(k[i], k[j]).value])
    ensures Scanned(k, next, if next == batch then firsts else firsts + [(i, j)], i, j + 1)
  {
    assert Seen(k, next, i, j);
    SeenExtends(k, batch, next, i, j);
    if next != batch {
      var d := Candidate(k[i], k[j]).value;
      assert next[|batch|] == d;
      assert d !in batch by {
        forall t | 0 <= t < |batch| ensures batch[t] != d {
          assert next[t] == batch[t];
        }
      }
      AppendedIsFirst(k, batch, i, j, d);
      ScanAppend(k, batch, firsts, i, j, d);
    }
  }

  /** Appending the sentence first derived at (i, j) puts it after every
      sentence first derived earlier. */
  lemma ScanAppend(k: seq<Sentence>, batch: seq<Sentence>, firsts: seq<(int, int)>, i: int, j: int, d: Sentence)
    requires Scanned(k, batch, firsts, i, j)
    requires FirstDerivedAt(k, d, i, j)
    requires SoundBatch(k, batch + [d]) && SeenBefore(k, batch + [d], i, j + 1)
    ensures Scanned(k, batch + [d], firsts + [(i, j)], i, j + 1)
  {
    var next, firsts' := batch + [d], firsts + [(i, j)];
    forall t | 0 <= t < |next|
      ensures FirstDerivedAt(k, next[t], firsts'[t].0, firsts'[t].1) && PairBefore(firsts'[t], (i, j + 1))
    {
      if t < |batch| {
        assert next[t] == batch[t] && firsts'[t] == firsts[t];
      }
    }
    forall t, u | 0 <= t < u < |next| ensures PairBefore(firsts'[t], firsts'[u]) {
      assert firsts'[t] == firsts[t];
      if u < |batch| {
        assert firsts'[u] == firsts[u];
      }
    }
  }

  /** Finishing row `i` is starting row `i + 1`. */
  lemma RowScanned(k: seq<Sentence>, batch: seq<Sentence>, firsts: seq<(int, int)>, i: int)
    requires Scanned(k, batch, firsts, i, |k|)
    ensures Scanned(k, batch, firsts, i + 1, 0)
  {
  }

  /** Once every pair is visited, the batch holds exactly the new derivable
      sentences, each once, ordered by the pair that first derives it. */
  lemma ScannedAll(k: seq<Sentence>, batch: seq<Sentence>, firsts: seq<(int, int)>)
    requires Scanned(k, batch, firsts, |k|, 0)
    ensures forall p, q :: 0 <= p < |k| && 0 <= q < |k| && Reducible(k[p], k[q]) ==>
      Difference(k[q], k[p]) in k + batch
    ensures forall t :: 0 <= t < |batch| ==> FirstDerived(k, batch[t])
    ensures forall t, u, p, q, p', q' ::
      0 <= t < u < |batch| && FirstDerivedAt(k, batch[t], p, q) && FirstDerivedAt(k, batch[u], p', q') ==>
      PairBefore((p, q), (p', q'))
  {
    forall p, q | 0 <= p < |k| && 0 <= q < |k| && Reducible(k[p], k[q])
      ensures Difference(k[q], k[p]) in k + batch
    {
      assert Seen(k, batch, p, q);
    }
    forall t, u, p, q, p', q' |
      0 <= t < u < |batch| && FirstDerivedAt(k, batch[t], p, q) && FirstDerivedAt(k, batch[u], p', q')
      ensures PairBefore((p, q), (p', q'))
    {
      FirstDerivedUnique(k, batch[t], p, q, firsts[t].0, firsts[t].1);
      FirstDerivedUnique(k, batch[u], p', q', firsts[u].0, firsts[u].1);
    }
    forall t | 0 <= t < |batch| ensures FirstDerived(k, batch[t]) {
      assert FirstDerivedAt(k, batch[t], firsts[t].0, firsts[t].1);
    }
  }

  /** Stage 5 of `add_knowledge`: one round of pairwise subset inference over
      the knowledge, visiting the ordered pairs in row-major order and keeping
      only sentences not already in the knowledge and not already derived in
      this round. The batch lists them in the order in which they are first
      derived. */
  method InferSubsets(k: seq<Sentence>) returns (batch: seq<Sentence>)
    ensures forall t :: 0 <= t < |batch| ==> Derivable(k, batch[t])
    ensures forall t :: 0 <= t < |batch| ==> batch[t] !in k
    ensures forall t, u :: 0 <= t < u < |batch| ==> batch[t] != batch[u]
    ensures forall p, q :: 0 <= p < |k| && 0 <= q < |k| && Reducible(k[p], k[q]) ==>
      Difference(k[q], k[p]) in k + batch
    ensures forall t :: 0 <= t < |batch| ==> FirstDerived(k, batch[t])
    ensures forall t, u, p, q, p', q' ::
      0 <= t < u < |batch| && FirstDerivedAt(k, batch[t], p, q) && FirstDerivedAt(k, batch[u], p', q') ==>
      PairBefore((p, q), (p', q'))
  {
    batch := [];
    ghost var firsts: seq<(int, int)> := [];
    var i := 0;
    while i < |k|
      invariant 0 <= i <= |k|
      invariant Scanned(k, batch, firsts, i, 0)
    {
      var j := 0;
      while j < |k|
        invariant 0 <= j <= |k|
        invariant Scanned(k, batch, firsts, i, j)
      {
        var next := InferPair(k, batch, i, j);
        ScanStep(k, batch, firsts, i, j, next);
        if next != batch {
          firsts := firsts + [(i, j)];
        }
        batch := next;
        j := j + 1;
      }
      RowScanned(k, batch, firsts, i);
      i := i + 1;
    }
    ScannedAll(k, batch, firsts);
  }

  /** Sentences derived by subset inference only mention cells of the
      sentences they came from, and are true whenever those are. */
  lemma DerivedFits(k: seq<Sentence>, s: Sentence, known: set<Cell>, truth: set<Cell>)
    requires Derivable(k, s)
    ensures (forall t :: 0 <= t < |k| ==> k[t].cells !! known) ==> s.cells !! known
    ensures (forall t :: 0 <= t < |k| ==> Holds(k[t], truth)) ==> Holds(s, truth)
  {
    var p, q :| 0 <= p < |k| && 0 <= q < |k| && Reducible(k[p], k[q]) && s == Difference(k[q], k[p]);
    if forall t :: 0 <= t < |k| ==> Holds(k[t], truth) {
      DifferenceSound(k[p], k[q], truth);
    }
  }

  /** Stage 6 of `add_knowledge`: drops every sentence with no cells. */
  function RemoveEmpty(k: seq<Sentence>): (r: seq<Sentence>)
    ensures forall t :: 0 <= t < |r| ==> r[t].cells != {}
    ensures forall s :: s in r <==> s in k && s.cells != {}
    ensures forall s :: multiset(r)[s] == if s.cells != {} then multiset(k)[s] else 0
    ensures |r| <= |k|
  {
    if |k| == 0 then []
    else
      assert k == [k[0]] + k[1..];
      if k[0].cells != {} then [k[0]] + RemoveEmpty(k[1..])
      else RemoveEmpty(k[1..])
  }

  /** Filtering a concatenation filters each part and keeps them in order,
      so the kept sentences stay in list order. */
  lemma {:induction false} RemoveEmptyAppend(a: seq<Sentence>, b: seq<Sentence>)
    ensures RemoveEmpty(a + b) == RemoveEmpty(a) + RemoveEmpty(b)
    decreases |a|
  {
    if |a| == 0 {
      assert a + b == b;
    } else {
      assert (a + b)[1..] == a[1..] + b;
      RemoveEmptyAppend(a[1..], b);
    }
  }

  /** Appending derived sentences keeps the agent valid: a difference of
      two sentences mentions no cell that neither of them mentions. */
  lemma AppendDerivedValid(ai: AI, batch: seq<Sentence>)
    requires forall t :: 0 <= t < |batch| ==> Derivable(ai.knowledge, batch[t])
    ensures Valid(ai) ==> Valid(ai.(knowledge := ai.knowledge + batch))
  {
    if Valid(ai) {
      var k := ai.knowledge + batch;
      forall t | 0 <= t < |k| ensures k[t].cells !! (ai.mines + ai.safes) {
        if t >= |ai.knowledge| {
          assert k[t] == batch[t - |ai.knowledge|];
          DerivedFits(ai.knowledge, batch[t - |ai.knowledge|], ai.mines + ai.safes, {});
        }
      }
    }
  }

  /** Appending derived sentences keeps the agent consistent with every
      board it was consistent with. */
  lemma AppendDerivedConsistent(ai: AI, batch: seq<Sentence>, truth: set<Cell>)
    requires forall t :: 0 <= t < |batch| ==> Derivable(ai.knowledge, batch[t])
    requires Consistent(ai, truth)
    ensures Consistent(ai.(knowledge := ai.knowledge + batch), truth)
  {
    var k := ai.knowledge + batch;
    forall t | 0 <= t < |k| ensures Holds(k[t], truth) {
      if t >= |ai.knowledge| {
        assert k[t] == batch[t - |ai.knowledge|];
        DerivedFits(ai.knowledge, batch[t - |ai.knowledge|], {}, truth);
      }
    }
  }

  /** Dropping empty sentences keeps the agent valid and consistent. */
  lemma RemoveEmptyPreserves(ai: AI)
    ensures Valid(ai) ==> Valid(ai.(knowledge := RemoveEmpty(ai.knowledge)))
    ensures forall truth :: Consistent(ai, truth) ==> Consistent(ai.(knowledge := RemoveEmpty(ai.knowledge)), truth)
  {
    var r := ai.(knowledge := RemoveEmpty(ai.knowledge));
    forall t | 0 <= t < |r.knowledge| ensures exists u :: 0 <= u < |ai.knowledge| && ai.knowledge[u] == r.knowledge[t] {
      assert r.knowledge[t] in ai.knowledge;
    }
  }

  /** Processes the observation that the played `cell` has `count` mines
      among its neighbours: record it, add the neighbour sentence, close the
      knowledge under known mines and safes, run one round of subset
      inference, and drop empty sentences. */
  method AddKnowledge(ai: AI, cell: Cell, count: int) returns (r: AI)
    ensures r.height == ai.height && r.width == ai.width
    ensures r.movesMade == ai.movesMade + {cell}
    ensures cell in r.safes
    ensures ai.mines <= r.mines && ai.safes <= r.safes
    ensures forall t :: 0 <= t < |r.knowledge| ==> r.knowledge[t].cells != {}
    ensures forall t :: 0 <= t < |ai.knowledge| ==>
      var s := Reduce(ai.knowledge[t].MarkSafe(cell), r.mines - ai.mines, r.safes - (ai.safes + {cell}));
      s.cells != {} ==> s in r.knowledge
    ensures var around := Neighbours(cell, ai.height, ai.width);
      var s := Reduce(Sentence(around - ai.mines - ai.safes, count - |around * ai.mines|),
                      r.mines - ai.mines, r.safes - (ai.safes + {cell}));
      s.cells != {} ==> s in r.knowledge
    ensures forall t :: 0 <= t < |ai.knowledge| ==>
      var s := Reduce(ai.knowledge[t].MarkSafe(cell), r.mines - ai.mines, r.safes - (ai.safes + {cell}));
      s.KnownMines() <= r.mines && s.KnownSafes() <= r.safes
    ensures var around := Neighbours(cell, ai.height, ai.width);
      var s := Reduce(Sentence(around - ai.mines - ai.safes, count - |around * ai.mines|),
                      r.mines - ai.mines, r.safes - (ai.safes + {cell}));
      s.KnownMines() <= r.mines && s.KnownSafes() <= r.safes
    ensures Valid(ai) ==> Valid(r)
    ensures forall truth ::
      Consistent(ai, truth) && cell !in truth && count == |Neighbours(cell, ai.height, ai.width) * truth|
      ==> Consistent(r, truth)
  {
    var observed := Observe(ai, cell, count);
    var closed := Closure(observed);
    var batch := InferSubsets(closed.knowledge);
    var extended := closed.(knowledge := closed.knowledge + batch);
    r := extended.(knowledge := RemoveEmpty(extended.knowledge));
    KnowledgeKept(ai, cell, count, observed, closed, batch);
    AppendDerivedValid(closed, batch);
    forall truth | Consistent(closed, truth) ensures Consistent(extended, truth) {
      AppendDerivedConsistent(closed, batch, truth);
    }
    RemoveEmptyPreserves(extended);
  }

  /** No sentence is lost by `add_knowledge`: each earlier sentence, and the
      new sentence about the unknown neighbours, survives reduced by the
      cells the closure recorded, unless nothing of it is left. */
  lemma KnowledgeKept(ai: AI, cell: Cell, count: int, observed: AI, closed: AI, batch: seq<Sentence>)
    requires observed.mines == ai.mines && observed.safes == ai.safes + {cell}
    requires var around := Neighbours(cell, ai.height, ai.width);
      var unknown := around - ai.mines - ai.safes;
      && |observed.knowledge| == |ai.knowledge| + (if unknown == {} then 0 else 1)
      && (unknown != {} ==>
            observed.knowledge[|ai.knowledge|] == Sentence(unknown, count - |around * ai.mines|))
    requires forall t :: 0 <= t < |ai.knowledge| ==> observed.knowledge[t] == ai.knowledge[t].MarkSafe(cell)
    requires ReducedBy(observed, closed) && Saturated(closed)
    ensures forall t :: 0 <= t < |ai.knowledge| ==>
      var s := Reduce(ai.knowledge[t].MarkSafe(cell), closed.mines - ai.mines, closed.safes - (ai.safes + {cell}));
      s.cells != {} ==> s in RemoveEmpty(closed.knowledge + batch)
    ensures forall t :: 0 <= t < |ai.knowledge| ==>
      var s := Reduce(ai.knowledge[t].MarkSafe(cell), closed.mines - ai.mines, closed.safes - (ai.safes + {cell}));
      s.KnownMines() <= closed.mines && s.KnownSafes() <= closed.safes
    ensures var around := Neighbours(cell, ai.height, ai.width);
      var s := Reduce(Sentence(around - ai.mines - ai.safes, count - |around * ai.mines|),
                      closed.mines - ai.mines, closed.safes - (ai.safes + {cell}));
      s.KnownMines() <= closed.mines && s.KnownSafes() <= closed.safes
    ensures var around := Neighbours(cell, ai.height, ai.width);
      var s := Reduce(Sentence(around - ai.mines - ai.safes, count - |around * ai.mines|),
                      closed.mines - ai.mines, closed.safes - (ai.safes + {cell}));
      s.cells != {} ==> s in RemoveEmpty(closed.knowledge + batch)
  {
    var k := closed.knowledge + batch;
    forall t | 0 <= t < |ai.knowledge|
      ensures var s := Reduce(ai.knowledge[t].MarkSafe(cell), closed.mines - ai.mines, closed.safes - (ai.safes + {cell}));
        s.cells != {} ==> s in RemoveEmpty(k)
    {
      assert k[t] == closed.knowledge[t];
    }
    forall t | 0 <= t < |ai.knowledge|
      ensures var s := Reduce(ai.knowledge[t].MarkSafe(cell), closed.mines - ai.mines, closed.safes - (ai.safes + {cell}));
        s.KnownMines() <= closed.mines && s.KnownSafes() <= closed.safes
    {
      assert closed.knowledge[t] == Reduce(observed.knowledge[t], closed.mines - observed.mines, closed.safes - observed.safes);
    }
    var around := Neighbours(cell, ai.height, ai.width);
    var unknown := around - ai.mines - ai.safes;
    if unknown != {} {
      var n := |ai.knowledge|;
      assert k[n] == closed.knowledge[n];
      assert closed.knowledge[n] == Reduce(observed.knowledge[n], closed.mines - observed.mines, closed.safes - observed.safes);
    }
  }

  /** Returns a known-safe cell that has not been played, or None when every
      safe cell has been played. The order in which `make_safe_move` iterates
      the Python set is left open. */
  method MakeSafeMove(ai: AI) returns (move: Option<Cell>)
    ensures move.Some? ==> move.value in ai.safes && move.value !in ai.movesMade
    ensures move.None? <==> ai.safes <= ai.movesMade
    ensures move.Some? ==> forall truth :: Consistent(ai, truth) ==> move.value !in truth
  {
    var rest := ai.safes;
    while rest != {}
      invariant rest <= ai.safes
      invariant forall c :: c in ai.safes && c !in rest ==> c in ai.movesMade
      decreases rest
    {
      var c :| c in rest;
      if c !in ai.movesMade {
        return Some(c);
      }
      rest := rest - {c};
    }
    return None;
  }

  /** The cells a random move may choose: on the board, not played, not a known mine. */
  function RandomChoices(ai: AI): (r: set<Cell>)
    ensures forall c :: c in r <==>
      0 <= c.row < ai.height && 0 <= c.col < ai.width && c !in ai.movesMade && c !in ai.mines
  {
    set i, j | 0 <= i < ai.height && 0 <= j < ai.width
               && Cell(i, j) !in ai.movesMade && Cell(i, j) !in ai.mines :: Cell(i, j)
  }

  /** Picks some eligible cell (`make_random_move` in minesweeper.py picks uniformly at random), or
      None when every cell of the board is played or a known mine. */
  method MakeRandomMove(ai: AI) returns (move: Option<Cell>)
    ensures move.Some? ==>
      && 0 <= move.value.row < ai.height && 0 <= move.value.col < ai.width
      && move.value !in ai.movesMade && move.value !in ai.mines
    ensures move.None? <==> forall i, j :: 0 <= i < ai.height && 0 <= j < ai.width ==>
      Cell(i, j) in ai.movesMade || Cell(i, j) in ai.mines
  {
    var choices := RandomChoices(ai);
    if choices == {} {
      forall i, j | 0 <= i < ai.height && 0 <= j < ai.width
        ensures Cell(i, j) in ai.movesMade || Cell(i, j) in ai.mines
      {
        assert Cell(i, j) !in choices;
      }
      move := None;
    } else {
      var c :| c in choices;
      assert c == Cell(c.row, c.col);
      move := Some(c);
    }
  }
}

=== FILE: minesweeper_board.dfy ===
/** The hidden Minesweeper board: a height × width grid of booleans, true
    where a mine lies. Only the mine-counting query is modelled; random mine
    placement and console printing are not. */
module Minesweeper {
  import opened Cells

  datatype Game = Game(height: int, width: int, board: seq<seq<bool>>)

  /** The board has `height` rows of `width` squares each. */
  predicate WellFormed(g: Game) {
    && 0 <= g.height
    && 0 <= g.width
    && |g.board| == g.height
    && forall i :: 0 <= i < g.height ==> |g.board[i]| == g.width
  }

  /** The cells that hold a mine (the game's `mines` set). */
  function MineSet(g: Game): (r: set<Cell>)
    requires WellFormed(g)
    ensures forall n :: n in r <==> 0 <= n.row < g.height && 0 <= n.col < g.width && g.board[n.row][n.col]
  {
    set i, j | 0 <= i < g.height && 0 <= j < g.width && g.board[i][j] :: Cell(i, j)
  }

  /** `seen` holds exactly the mines among the neighbours of `cell` that
      come before position (i, j) of the scan. */
  ghost predicate CountedBefore(g: Game, cell: Cell, seen: set<Cell>, i: int, j: int)
    requires WellFormed(g)
  {
    forall n :: n in seen <==> IsNeighbour(cell, n, g.height, g.width) && n in MineSet(g) && ScannedBefore(n, i, j)
  }

  /** The number of mines among the in-bounds neighbours of `cell`, computed
      by the same 3 × 3 row-major scan as `nearby_mines` in minesweeper.py. */
  method NearbyMines(g: Game, cell: Cell) returns (count: int)
    requires WellFormed(g)
    ensures count == |Neighbours(cell, g.height, g.width) * MineSet(g)|
  {
    ghost var seen: set<Cell> := {};
    count := 0;
    var i := cell.row - 1;
    while i < cell.row + 2
      invariant cell.row - 1 <= i <= cell.row + 2
      invariant CountedBefore(g, cell, seen, i, cell.col - 1)
      invariant count == |seen|
    {
      count, seen := CountInRow(g, cell, i, count, seen);
      i := i + 1;
    }
    assert seen == Neighbours(cell, g.height, g.width) * MineSet(g);
  }

  /** The inner loop of the scan: adds the mines among `cell`'s neighbours
      in row `i`. */
  method CountInRow(g: Game, cell: Cell, i: int, count: int, ghost seen: set<Cell>)
    returns (count': int, ghost seen': set<Cell>)
    requires WellFormed(g) && cell.row - 1 <= i <= cell.row + 1
    requires CountedBefore(g, cell, seen, i, cell.col - 1) && count == |seen|
    ensures CountedBefore(g, cell, seen', i + 1, cell.col - 1) && count' == |seen'|
    ensures count <= count' <= count + 3
  {
    count', seen' := count, seen;
    var j := cell.col - 1;
    while j < cell.col + 2
      invariant cell.col - 1 <= j <= cell.col + 2
      invariant CountedBefore(g, cell, seen', i, j)
      invariant count' == |seen'|
      invariant count <= count' <= count + (j - cell.col + 1)
    {
      ghost var before := seen';
      if Cell(i, j) != cell && 0 <= i < g.height && 0 <= j < g.width && g.board[i][j] {
        assert Cell(i, j) !in seen';
        seen' := seen' + {Cell(i, j)};
        count' := count' + 1;
      }
      forall n: Cell
        ensures n in seen' <==> IsNeighbour(cell, n, g.height, g.width) && n in MineSet(g) && ScannedBefore(n, i, j + 1)
      {
        assert ScannedBefore(n, i, j + 1) <==> ScannedBefore(n, i, j) || n == Cell(i, j);
        assert n in seen' <==> n in before || (n == Cell(i, j) && n in seen');
      }
      j := j + 1;
    }
  }
}

=== FILE: minimax.dfy ===
/** Minimax search over the tic-tac-toe game tree: the value of a board under
    perfect play by both sides, and a move that attains it. */
module Minimax {
  import opened Wrappers
  import opened TicTacToe

  /** The nine squares in row-major order. */
  const Squares: seq<Action> := [(0, 0), (0, 1), (0, 2), (1, 0), (1, 1), (1, 2), (2, 0), (2, 1), (2, 2)]

  /** The empty squares among `candidates`, in order. */
  function EmptyAmong(b: Board, candidates: seq<Action>): (r: seq<Action>)
    requires forall t :: 0 <= t < |candidates| ==> InRange(candidates[t])
    ensures forall a :: a in r <==> a in candidates && a in Actions(b)
  {
    if |candidates| == 0 then []
    else
      var a := candidates[0];
      assert InRange(a);
      (if b[a.0][a.1] == None then [a] else []) + EmptyAmong(b, candidates[1..])
  }

  /** The legal moves as a sequence; the set of moves is iterated in an
      unspecified order by `minimax_score` in tictactoe.py, and the extreme of the children's
      scores does not depend on that order. */
  function ActionList(b: Board): (r: seq<Action>)
    ensures forall a :: a in r <==> a in Actions(b)
  {
    assert forall a :: InRange(a) ==> a in Squares;
    EmptyAmong(b, Squares)
  }

  /** The board after the legal move `a`: the player's mark written there. */
  function Child(b: Board, a: Action): (c: Board)
    requires a in Actions(b)
    ensures Count(c, None) == Count(b, None) - 1
  {
    PlaceCounts(b, a, None);
    Place(b, a)
  }

  /** `Child` is the board `result` returns for a legal move. */
  lemma ChildIsResult(b: Board, a: Action)
    requires a in Actions(b)
    ensures Result(b, a) == Moved(Child(b, a))
  {
  }

  /** A game that is not over has a legal move. */
  lemma NonTerminalHasMove(b: Board)
    requires !Terminal(b)
    ensures |ActionList(b)| > 0
  {
    TerminalIff(b);
    var a :| a in Actions(b);
    assert a in ActionList(b);
  }

  /** The largest of `scores` when maximising, the smallest otherwise. */
  function Extreme(scores: seq<int>, maximize: bool): (r: int)
    requires |scores| > 0
    ensures r in scores
    ensures forall t :: 0 <= t < |scores| ==> if maximize then scores[t] <= r else r <= scores[t]
  {
    if |scores| == 1 then scores[0]
    else
      var rest := Extreme(scores[1..], maximize);
      assert forall t :: 1 <= t < |scores| ==> scores[t] == scores[1..][t - 1];
      if maximize then (if scores[0] >= rest then scores[0] else rest)
      else (if scores[0] <= rest then scores[0] else rest)
  }

  /** The value of the board for X under perfect play: the utility of a
      finished game, otherwise the best child value for the player to move.
      Each move fills one empty square, so the recursion ends. */
  function Score(b: Board): (r: int)
    ensures -1 <= r <= 1
    decreases Count(b, None), 2, 0
  {
    if Terminal(b) then Utility(b)
    else
      NonTerminalHasMove(b);
      Extreme(ChildScores(b, ActionList(b)), Player(b) == X)
  }

  /** The scores of the children reached by `moves`, in order. */
  function ChildScores(b: Board, moves: seq<Action>): (r: seq<int>)
    requires forall t :: 0 <= t < |moves| ==> moves[t] in Actions(b)
    ensures |r| == |moves|
    ensures forall t :: 0 <= t < |r| ==> -1 <= r[t] <= 1
    decreases Count(b, None), 1, |moves|
  {
    if |moves| == 0 then []
    else [Outcome(b, moves[0])] + ChildScores(b, moves[1..])
  }

  /** The `t`-th child score is the score after the `t`-th move. */
  lemma {:induction false} ChildScoresAt(b: Board, moves: seq<Action>, t: int)
    requires forall u :: 0 <= u < |moves| ==> moves[u] in Actions(b)
    requires 0 <= t < |moves|
    ensures ChildScores(b, moves)[t] == Outcome(b, moves[t])
    decreases t
  {
    if t > 0 {
      ChildScoresAt(b, moves[1..], t - 1);
    }
  }

  /** The score of the board after the legal move `a`. */
  function Outcome(b: Board, a: Action): (r: int)
    requires a in Actions(b)
    ensures -1 <= r <= 1
    decreases Count(b, None), 0, 0
  {
    Score(Child(b, a))
  }

  /** The score of a finished game is its utility; otherwise it is the
      maximum over the children when X moves and the minimum when O moves. */
  lemma ScoreIsMinimax(b: Board)
    ensures Terminal(b) ==> Score(b) == Utility(b)
    ensures !Terminal(b) ==> exists a :: a in Actions(b) && Outcome(b, a) == Score(b)
    ensures !Terminal(b) && Player(b) == X ==>
      forall a :: a in Actions(b) ==> Outcome(b, a) <= Score(b)
    ensures !Terminal(b) && Player(b) == O ==>
      forall a :: a in Actions(b) ==> Score(b) <= Outcome(b, a)
  {
    if !Terminal(b) {
      NonTerminalHasMove(b);
      var moves := ActionList(b);
      assert Score(b) == Extreme(ChildScores(b, moves), Player(b) == X);
      ExtremeOverMoves(b, moves, Player(b) == X);
    }
  }

  /** The extreme child score over a list holding exactly the legal moves is
      attained by a legal move and bounds every legal move's score. */
  lemma ExtremeOverMoves(b: Board, moves: seq<Action>, maximize: bool)
    requires |moves| > 0
    requires forall a :: a in moves <==> a in Actions(b)
    ensures exists a :: a in Actions(b) && Outcome(b, a) == Extreme(ChildScores(b, moves), maximize)
    ensures forall a :: a in Actions(b) ==>
      if maximize then Outcome(b, a) <= Extreme(ChildScores(b, moves), maximize)
      else Extreme(ChildScores(b, moves), maximize) <= Outcome(b, a)
  {
    var scores := ChildScores(b, moves);
    var r := Extreme(scores, maximize);
    var t :| 0 <= t < |scores| && scores[t] == r;
    ChildScoresAt(b, moves, t);
    assert moves[t] in Actions(b);
    forall a | a in Actions(b)
      ensures if maximize then Outcome(b, a) <= r else r <= Outcome(b, a)
    {
      assert a in moves;
      var u :| 0 <= u < |moves| && moves[u] == a;
      ChildScoresAt(b, moves, u);
    }
  }

  /** The optimal move for the player to move, or None when the game is
      over. */
  method MinimaxMove(b: Board) returns (best: Option<Action>)
    ensures best.None? <==> Terminal(b)
    ensures best.Some? ==> best.value in Actions(b) && Outcome(b, best.value) == Score(b)
    ensures best.Some? && Player(b) == X ==>
      forall a :: a in Actions(b) ==> Outcome(b, a) <= Outcome(b, best.value)
    ensures best.Some? && Player(b) == O ==>
      forall a :: a in Actions(b) ==> Outcome(b, best.value) <= Outcome(b, a)
  {
    if Terminal(b) {
      return None;
    }
    TerminalIff(b);
    var move;
    if Player(b) == X {
      move := MaximizingMove(b, Actions(b));
    } else {
      move := MinimizingMove(b, Actions(b));
    }
    BestChildAttainsScore(b, move);
    return Some(move);
  }

  /** Tries the moves in an unspecified order and keeps the first one whose
      child scores strictly higher than every one before it; -2 stands in
      for negative infinity. */
  method MaximizingMove(b: Board, moves: set<Action>) returns (best: Action)
    requires moves != {} && moves <= Actions(b)
    ensures best in moves
    ensures forall a :: a in moves ==> Outcome(b, a) <= Outcome(b, best)
  {
    ghost var value := map x | x in moves :: Outcome(b, x);
    ghost var done: set<Action> := {};
    var found := false;
    var bestScore := -2;
    var rest := moves;
    best :| best in rest;
    while rest != {}
      invariant done + rest == moves && done !! rest && best in moves
      invariant !found ==> done == {} && bestScore == -2
      invariant found ==> best in done && bestScore == value[best]
      invariant Bounds(done, value, bestScore, true)
      decreases rest
    {
      var a :| a in rest;
      var score := Outcome(b, a);
      assert score == value[a];
      ghost var previous := bestScore;
      if score > bestScore {
        bestScore, best, found := score, a, true;
      }
      BoundsExtend(done, value, previous, bestScore, a, true);
      MoveAcross(done, rest, moves, a);
      done, rest := done + {a}, rest - {a};
    }
  }

  /** Tries the moves in an unspecified order and keeps the first one whose
      child scores strictly lower than every one before it; 2 stands in
      for positive infinity. */
  method MinimizingMove(b: Board, moves: set<Action>) returns (best: Action)
    requires moves != {} && moves <= Actions(b)
    ensures best in moves
    ensures forall a :: a in moves ==> Outcome(b, best) <= Outcome(b, a)
  {
    ghost var value := map x | x in moves :: Outcome(b, x);
    ghost var done: set<Action> := {};
    var found := false;
    var bestScore := 2;
    var rest := moves;
    best :| best in rest;
    while rest != {}
      invariant done + rest == moves && done !! rest && best in moves
      invariant !found ==> done == {} && bestScore == 2
      invariant found ==> best in done && bestScore == value[best]
      invariant Bounds(done, value, bestScore, false)
      decreases rest
    {
      var a :| a in rest;
      var score := Outcome(b, a);
      assert score == value[a];
      ghost var previous := bestScore;
      if score < bestScore {
        bestScore, best, found := score, a, true;
      }
      BoundsExtend(done, value, previous, bestScore, a, false);
      MoveAcross(done, rest, moves, a);
      done, rest := done + {a}, rest - {a};
    }
  }

  /** Moving one element from `rest` to `done` keeps them a partition of `all`. */
  lemma MoveAcross(done: set<Action>, rest: set<Action>, all: set<Action>, a: Action)
    requires done + rest == all && done !! rest && a in rest
    ensures (done + {a}) + (rest - {a}) == all && (done + {a}) !! (rest - {a})
  {
  }

  /** `bound` is at least (when maximising) or at most (otherwise) the value
      of every move in `done`. */
  ghost predicate Bounds(done: set<Action>, value: map<Action, int>, bound: int, maximize: bool) {
    forall x :: x in done ==> x in value && if maximize then value[x] <= bound else bound <= value[x]
  }

  /** Moving the bound towards the extreme and adding a move within it keeps
      every earlier move within the bound. */
  lemma BoundsExtend(done: set<Action>, value: map<Action, int>, previous: int, bound: int, a: Action, maximize: bool)
    requires Bounds(done, value, previous, maximize) && a in value
    requires maximize ==> previous <= bound && value[a] <= bound
    requires !maximize ==> bound <= previous && bound <= value[a]
    ensures Bounds(done + {a}, value, bound, maximize)
  {
  }

  /** A move whose child scores at least as well as every other child, for
      the player to move, attains the board's score. */
  lemma BestChildAttainsScore(b: Board, best: Action)
    requires !Terminal(b) && best in Actions(b)
    requires Player(b) == X ==> forall a :: a in Actions(b) ==> Outcome(b, a) <= Outcome(b, best)
    requires Player(b) == O ==> forall a :: a in Actions(b) ==> Outcome(b, best) <= Outcome(b, a)
    ensures Outcome(b, best) == Score(b)
  {
    ScoreIsMinimax(b);
  }
}

=== FILE: sentence.dfy ===
/** A sentence of the Minesweeper agent's knowledge: "exactly `count` of
    `cells` are mines". Sentences are values; Dafny's structural equality on
    the datatype is `Sentence.__eq__` in minesweeper.py (same cell set, same count). */
module Sentences {
  import opened Cells

  datatype Sentence = Sentence(cells: set<Cell>, count: int) {

    /** Every cell, when the count says all of them are mines; otherwise none. */
    function KnownMines(): (r: set<Cell>)
      ensures r == {} || r == cells
      ensures r != {} <==> count == |cells| && |cells| > 0
    {
      if count == |cells| && |cells| > 0 then cells else {}
    }

    /** Every cell, when the count says none of them is a mine; otherwise none. */
    function KnownSafes(): (r: set<Cell>)
      ensures r == {} || r == cells
      ensures r == cells <==> count == 0 || cells == {}
    {
      if count == 0 then cells else {}
    }

    /** Takes a cell known to be a mine out of the sentence. */
    function MarkMine(c: Cell): (r: Sentence)
      ensures c in cells ==> r.cells == cells - {c} && r.count == count - 1
      ensures c !in cells ==> r == this
      ensures c !in r.cells
    {
      if c in cells then Sentence(cells - {c}, count - 1) else this
    }

    /** Takes a cell known to be safe out of the sentence. */
    function MarkSafe(c: Cell): (r: Sentence)
      ensures r.cells == cells - {c} && r.count == count
      ensures c !in cells ==> r == this
    {
      if c in cells then Sentence(cells - {c}, count) else this
    }
  }

  /** The sentence `b` with the cells and mines of `a` taken away: when `a`'s
      cells lie inside `b`'s, the rest of `b` holds the remaining mines. */
  function Difference(b: Sentence, a: Sentence): Sentence {
    Sentence(b.cells - a.cells, b.count - a.count)
  }

  /** The sentence is true of a board whose mines are `truth`. */
  ghost predicate Holds(s: Sentence, truth: set<Cell>) {
    |s.cells * truth| == s.count
  }

  /** A true sentence has a count between zero and its number of cells. */
  lemma HoldsBounds(s: Sentence, truth: set<Cell>)
    requires Holds(s, truth)
    ensures 0 <= s.count <= |s.cells|
  {
    assert s.cells == s.cells * truth + (s.cells - truth);
  }

  lemma SubsetOfSameSize<T>(a: set<T>, b: set<T>)
    requires a <= b && |a| == |b|
    ensures a == b
  {
    assert b == a + (b - a);
    assert |b - a| == 0;
  }

  /** The cells a true sentence reports as mines are mines. */
  lemma KnownMinesSound(s: Sentence, truth: set<Cell>)
    requires Holds(s, truth)
    ensures s.KnownMines() <= truth
  {
    if s.KnownMines() != {} {
      SubsetOfSameSize(s.cells * truth, s.cells);
    }
  }

  /** The cells a true sentence reports as safe are not mines. */
  lemma KnownSafesSound(s: Sentence, truth: set<Cell>)
    requires Holds(s, truth)
    ensures s.KnownSafes() !! truth
  {
    if s.count == 0 {
      assert s.cells * truth == {};
      forall c | c in s.cells ensures c !in truth {
        assert c !in s.cells * truth;
      }
    }
  }

  /** Removing a real mine keeps a true sentence true. */
  lemma MarkMineSound(s: Sentence, c: Cell, truth: set<Cell>)
    requires Holds(s, truth) && c in truth
    ensures Holds(s.MarkMine(c), truth)
  {
    if c in s.cells {
      assert (s.cells - {c}) * truth == s.cells * truth - {c};
    }
  }

  /** Removing a really safe cell keeps a true sentence true. */
  lemma MarkSafeSound(s: Sentence, c: Cell, truth: set<Cell>)
    requires Holds(s, truth) && c !in truth
    ensures Holds(s.MarkSafe(c), truth)
  {
    assert (s.cells - {c}) * truth == s.cells * truth;
  }

  /** Subset inference is sound: if `a`'s cells lie inside `b`'s and both are
      true, so is their difference. */
  lemma DifferenceSound(a: Sentence, b: Sentence, truth: set<Cell>)
    requires Holds(a, truth) && Holds(b, truth)
    requires a.cells <= b.cells
    ensures Holds(Difference(b, a), truth)
  {
    var inA, rest := a.cells * truth, (b.cells - a.cells) * truth;
    assert b.cells * truth == inA + rest;
    assert inA !! rest;
  }
}

=== FILE: tictactoe.dfy ===
/** The rules of tic-tac-toe on a 3 × 3 board: whose turn it is, the legal
    moves, the board after a move, the winner, the end of the game and its
    value for X. */
module TicTacToe {
  import opened Wrappers

  datatype Mark = X | O

  /** A square holds a mark or is empty (`None`, `EMPTY` in tictactoe.py). */
  type Square = Option<Mark>

  predicate IsGrid(rows: seq<seq<Square>>) {
    |rows| == 3 && forall i :: 0 <= i < 3 ==> |rows[i]| == 3
  }

  type Board = rows: seq<seq<Square>> | IsGrid(rows)
    witness [[None, None, None], [None, None, None], [None, None, None]]

  /** A move names a (row, column) square. */
  type Action = (int, int)

  predicate InRange(a: Action) {
    0 <= a.0 < 3 && 0 <= a.1 < 3
  }

  function InitialState(): (b: Board)
    ensures forall i, j :: 0 <= i < 3 && 0 <= j < 3 ==> b[i][j] == None
  {
    [[None, None, None], [None, None, None], [None, None, None]]
  }

  /** How many squares of a row hold `s` (`row.count(s)` in `player`). */
  function CountRow(row: seq<Square>, s: Square): nat {
    if |row| == 0 then 0 else (if row[0] == s then 1 else 0) + CountRow(row[1..], s)
  }

  /** How many squares of the board hold `s`, summed row by row. */
  function Count(rows: seq<seq<Square>>, s: Square): nat {
    if |rows| == 0 then 0 else CountRow(rows[0], s) + Count(rows[1..], s)
  }

  /** X moves when it has placed no more marks than O, otherwise O. */
  function Player(b: Board): Mark {
    if Count(b, Some(X)) <= Count(b, Some(O)) then X else O
  }

  /** Every empty square. */
  function Actions(b: Board): (r: set<Action>)
    ensures forall a :: a in r <==> InRange(a) && b[a.0][a.1] == None
  {
    set i, j | 0 <= i < 3 && 0 <= j < 3 && b[i][j] == None :: (i, j)
  }

  /** The board with the current player's mark written at `a`. */
  function Place(b: Board, a: Action): (r: Board)
    requires InRange(a)
    ensures r[a.0][a.1] == Some(Player(b))
    ensures forall i, j :: 0 <= i < 3 && 0 <= j < 3 && (i, j) != a ==> r[i][j] == b[i][j]
  {
    b[a.0 := b[a.0][a.1 := Some(Player(b))]]
  }

  datatype MoveError = OutOfBounds | AlreadyFilled

  /** `result` in tictactoe.py raises an exception for a bad move; here it is a value. */
  datatype MoveResult = Moved(board: Board) | Rejected(error: MoveError)

  lemma CountRowUpdate(row: seq<Square>, j: int, v: Square, s: Square)
    requires 0 <= j < |row|
    ensures CountRow(row[j := v], s)
      == CountRow(row, s) - (if row[j] == s then 1 else 0) + (if v == s then 1 else 0)
  {
    if j > 0 {
      assert row[j := v][1..] == row[1..][j - 1 := v];
      CountRowUpdate(row[1..], j - 1, v, s);
    } else {
      assert row[j := v][1..] == row[1..];
    }
  }

  lemma CountUpdate(rows: seq<seq<Square>>, i: int, j: int, v: Square, s: Square)
    requires 0 <= i < |rows| && 0 <= j < |rows[i]|
    ensures Count(rows[i := rows[i][j := v]], s)
      == Count(rows, s) - (if rows[i][j] == s then 1 else 0) + (if v == s then 1 else 0)
  {
    if i > 0 {
      assert rows[i := rows[i][j := v]][1..] == rows[1..][i - 1 := rows[i][j := v]];
      CountUpdate(rows[1..], i - 1, j, v, s);
    } else {
      assert rows[i := rows[i][j := v]][1..] == rows[1..];
      CountRowUpdate(rows[0], j, v, s);
    }
  }

  /** Placing on an empty square fills one square with the player's mark
      and changes no other count. */
  lemma PlaceCounts(b: Board, a: Action, s: Square)
    requires InRange(a) && b[a.0][a.1] == None
    ensures Count(Place(b, a), s)
      == Count(b, s) - (if s == None then 1 else 0) + (if s == Some(Player(b)) then 1 else 0)
  {
    CountUpdate(b, a.0, a.1, Some(Player(b)), s);
  }

  /** The board after the current player moves at `a`, or the reason the move
      is refused: off the board, or on a filled square. */
  function Result(b: Board, a: Action): (r: MoveResult)
    ensures r.Moved? <==> a in Actions(b)
    ensures !InRange(a) ==> r == Rejected(OutOfBounds)
    ensures InRange(a) && b[a.0][a.1] != None ==> r == Rejected(AlreadyFilled)
    ensures r.Moved? ==> r.board[a.0][a.1] == Some(Player(b))
    ensures r.Moved? ==> forall i, j :: 0 <= i < 3 && 0 <= j < 3 && (i, j) != a ==> r.board[i][j] == b[i][j]
    ensures r.Moved? ==> Count(r.board, None) == Count(b, None) - 1
  {
    if !InRange(a) then Rejected(OutOfBounds)
    else if b[a.0][a.1] != None then Rejected(AlreadyFilled)
    else
      PlaceCounts(b, a, None);
      Moved(Place(b, a))
  }

  /** Three squares hold the same mark (`p == q == r != None` in `winner`). */
  predicate Uniform(p: Square, q: Square, r: Square) {
    p == q && q == r && r != None
  }

  /** The scan of `winner` in tictactoe.py: row i, then column i, for i = 0, 1, 2, then the two
      diagonals; the first complete line gives the winner. */
  function WinnerFrom(b: Board, i: nat): Square
    requires i <= 3
    decreases 3 - i
  {
    if i == 3 then
      if Uniform(b[0][0], b[1][1], b[2][2]) then b[0][0]
      else if Uniform(b[0][2], b[1][1], b[2][0]) then b[0][2]
      else None
    else if Uniform(b[i][0], b[i][1], b[i][2]) then b[i][0]
    else if Uniform(b[0][i], b[1][i], b[2][i]) then b[0][i]
    else WinnerFrom(b, i + 1)
  }

  function Winner(b: Board): Square {
    WinnerFrom(b, 0)
  }

  /** Row `r` is full of `m`. */
  ghost predicate RowOf(b: Board, r: int, m: Mark)
    requires 0 <= r < 3
  {
    forall j :: 0 <= j < 3 ==> b[r][j] == Some(m)
  }

  /** Column `c` is full of `m`. */
  ghost predicate ColumnOf(b: Board, c: int, m: Mark)
    requires 0 <= c < 3
  {
    forall k :: 0 <= k < 3 ==> b[k][c] == Some(m)
  }

  /** `m` holds a whole row, a whole column or a whole diagonal. */
  ghost predicate HasLine(b: Board, m: Mark) {
    || (exists r :: 0 <= r < 3 && RowOf(b, r, m))
    || (exists c :: 0 <= c < 3 && ColumnOf(b, c, m))
    || (forall k :: 0 <= k < 3 ==> b[k][k] == Some(m))
    || (forall k :: 0 <= k < 3 ==> b[k][2 - k] == Some(m))
  }

  /** Neither diagonal, nor any row or column numbered `i` or above, is full of `m`. */
  ghost predicate NoLineFrom(b: Board, m: Mark, i: nat) {
    && !(forall k :: 0 <= k < 3 ==> b[k][k] == Some(m))
    && !(forall k :: 0 <= k < 3 ==> b[k][2 - k] == Some(m))
    && (forall r :: i <= r < 3 ==> !RowOf(b, r, m))
    && (forall c :: i <= c < 3 ==> !ColumnOf(b, c, m))
  }

  lemma {:induction false} WinnerFromSound(b: Board, i: nat)
    requires i <= 3
    ensures WinnerFrom(b, i).Some? ==> HasLine(b, WinnerFrom(b, i).value)
    ensures WinnerFrom(b, i) == None ==> forall m :: NoLineFrom(b, m, i)
    decreases 3 - i
  {
    if i < 3 {
      WinnerFromSound(b, i + 1);
      if Uniform(b[i][0], b[i][1], b[i][2]) {
        assert RowOf(b, i, b[i][0].value);
      } else if Uniform(b[0][i], b[1][i], b[2][i]) {
        assert ColumnOf(b, i, b[0][i].value);
      } else if WinnerFrom(b, i) == None {
        forall m ensures NoLineFrom(b, m, i) {
          assert NoLineFrom(b, m, i + 1);
          assert !(b[i][0] == Some(m) && b[i][1] == Some(m) && b[i][2] == Some(m));
          assert !(b[0][i] == Some(m) && b[1][i] == Some(m) && b[2][i] == Some(m));
        }
      }
    } else {
      if Uniform(b[0][0], b[1][1], b[2][2]) {
        assert forall k :: 0 <= k < 3 ==> b[k][k] == b[0][0];
      } else if Uniform(b[0][2], b[1][1], b[2][0]) {
        assert forall k :: 0 <= k < 3 ==> b[k][2 - k] == b[0][2];
      } else {
        forall m ensures NoLineFrom(b, m, i) {
          assert !(b[0][0] == Some(m) && b[1][1] == Some(m) && b[2][2] == Some(m));
          assert !(b[0][2] == Some(m) && b[1][1] == Some(m) && b[2][0] == Some(m));
        }
      }
    }
  }

  /** `winner` names a mark only when that mark holds a line, and names none
      exactly when neither mark holds a line. */
  lemma WinnerMatchesLines(b: Board)
    ensures Winner(b).Some? ==> HasLine(b, Winner(b).value)
    ensures Winner(b) == None <==> !HasLine(b, X) && !HasLine(b, O)
  {
    WinnerFromSound(b, 0);
    if Winner(b) == None {
      assert NoLineFrom(b, X, 0) && NoLineFrom(b, O, 0);
    } else {
      var w := Winner(b).value;
      assert HasLine(b, w);
      assert w == X || w == O;
    }
  }

  /** No square of any row is empty (the row-by-row scan of `terminal`). */
  function FullRows(rows: seq<seq<Square>>): bool {
    |rows| == 0 || (None !in rows[0] && FullRows(rows[1..]))
  }

  /** The game is over when someone has won or no square is empty. */
  function Terminal(b: Board): bool {
    Winner(b) != None || FullRows(b)
  }

  /** 1 if X has won, -1 if O has won, 0 otherwise. */
  function Utility(b: Board): (u: int)
    ensures u == 1 <==> Winner(b) == Some(X)
    ensures u == -1 <==> Winner(b) == Some(O)
    ensures u == 0 <==> Winner(b) == None
  {
    match Winner(b)
    case Some(X) => 1
    case Some(O) => -1
    case None => 0
  }

  lemma {:induction false} FullRowsMeansNoEmpty(rows: seq<seq<Square>>)
    ensures FullRows(rows) <==>
      forall i, j :: 0 <= i < |rows| && 0 <= j < |rows[i]| ==> rows[i][j] != None
  {
    if |rows| > 0 {
      FullRowsMeansNoEmpty(rows[1..]);
      assert forall i :: 1 <= i < |rows| ==> rows[i] == rows[1..][i - 1];
    }
  }

  /** The game is over exactly when someone has won or no move is left. */
  lemma TerminalIff(b: Board)
    ensures Terminal(b) <==> Winner(b) != None || Actions(b) == {}
  {
    FullRowsMeansNoEmpty(b);
    if !FullRows(b) {
      var i, j :| 0 <= i < 3 && 0 <= j < 3 && b[i][j] == None;
      assert (i, j) in Actions(b);
    }
  }

  /** X has placed as many marks as O, or one more. */
  predicate Balanced(b: Board) {
    Count(b, Some(X)) == Count(b, Some(O)) || Count(b, Some(X)) == Count(b, Some(O)) + 1
  }

  /** The first mover is X, and on a balanced board X moves exactly when
      the marks are level. */
  lemma PlayerAlternates(b: Board)
    ensures Player(InitialState()) == X
    ensures Balanced(InitialState())
    ensures Balanced(b) ==> (Player(b) == X <==> Count(b, Some(X)) == Count(b, Some(O)))
  {
    var e := InitialState();
    assert CountRow(e[0], Some(X)) == 0 && CountRow(e[0], Some(O)) == 0;
    assert Count(e, Some(X)) == 0 && Count(e, Some(O)) == 0;
  }

  /** A legal move keeps the board balanced. */
  lemma ResultKeepsBalance(b: Board, a: Action)
    requires Balanced(b) && a in Actions(b)
    ensures Result(b, a).Moved? && Balanced(Result(b, a).board)
  {
    PlaceCounts(b, a, Some(X));
    PlaceCounts(b, a, Some(O));
  }

  /** The board after a sequence of moves from `b`, or the first refusal. */
  function Play(b: Board, moves: seq<Action>): MoveResult
    decreases |moves|
  {
    if |moves| == 0 then Moved(b)
    else match Result(b, moves[0])
      case Rejected(e) => Rejected(e)
      case Moved(next) => Play(next, moves[1..])
  }

  /** Along any legal play from a balanced board (the initial board is one),
      X has as many marks as O or one more. */
  lemma {:induction false} PlayKeepsBalance(b: Board, moves: seq<Action>)
    requires Balanced(b)
    ensures Play(b, moves).Moved? ==> Balanced(Play(b, moves).board)
    decreases |moves|
  {
    if |moves| > 0 && Result(b, moves[0]).Moved? {
      ResultKeepsBalance(b, moves[0]);
      PlayKeepsBalance(Result(b, moves[0]).board, moves[1..]);
    }
  }
}

=== FILE: wrappers.dfy ===
/** The optional-value datatype shared by both games: Python's `None` result
    (no safe move, no winner, an empty square, no optimal action). */
module Wrappers {

  datatype Option<+T> = None | Some(value: T)
}
